=== FILE: README.md ===
# Meeting-room state machine, in Dafny

This project models the in-memory core of a classroom video-meeting server and a few pure
helpers of its browser client. The server keeps a map of meetings. Each meeting holds:

- participants, each with an optional sentiment (good / neutral / negative);
- a sentiment distribution;
- quiz sessions with per-socket answers;
- transcript entries;
- a class summary;
- chat messages with per-kind reaction lists.

Socket events arrive one at a time and mutate one meeting, or, for `disconnect`, every
meeting. Each event also emits events to the room or to single sockets.

The model follows that structure:

- every handler is a pure function from the meeting record to the new record plus the list of
  emissions (`Room.RoomStep`, `Room.Emit`);
- `Server.Handle` is the single dispatcher over a registry that keeps the map's insertion
  order;
- `Client` holds the browser-side reducers.

Values that come from outside are parameters (`Server.Env`): a fresh uuid, the generative
service's MCQ reply, the transcriber's text and the summariser's reply.

Modules:

- `Wrappers`: `Option` and `Result`.
- `Text`: JavaScript `includes`, `split`, blank-after-`trim`, `join`, and ASCII case mapping.
- `Room`: the data model, the outbound events and participant lookups.
- `SentimentTally`: the distribution invariant (stored counts equal a recount).
- `Lifecycle`: the waiting room, joining, renaming, sentiment, remove / mute, and per-room
  disconnect.
- `McqGen`: the schema filter, truncation and fallback of `generateMCQs`, and the
  keyword-dispatched mock sets.
- `Quiz`: quiz generation, the response store, analytics, and generation from the summary.
- `Transcripts`: transcript chunks, audio chunks, and the end-of-meeting summary merge.
- `Chat`: sending messages and toggling reactions.
- `Server`: the registry, the dispatcher, the disconnect sweep, and the invariant every event
  preserves.
- `Client`: the YouTube link converter, the engagement window, chat reducers, pending join
  requests, and the rename guard.

Behaviours of the code that a reader might not expect, which the model keeps:

- `join-room` with `isAdmin` overwrites `meeting.admin` on every such join, so the latest
  admin wins, not the first (server/server.js:228-230).
- Admin-only handlers check the requester's own participant flag. They never consult
  `meeting.admin`, so a displaced admin keeps its powers (`Lifecycle.DisplacedAdminKeepsPowers`).
- The MCQ filter does not require the answer to be one of the options
  (`McqGen.AnswerOutsideOptionsKept`).
- The engagement updater's comment says a new point is added when the minute differs, but
  the code returns the history unchanged (src/pages/MeetingRoom.jsx:118-133).

## Model

| member | source | states |
|---|---|---|
| Lifecycle.RequestToJoin | server/server.js:160-176 | exactly one emission: the request goes to the admin's socket when the room exists and has an admin; otherwise the requester itself is approved |
| Lifecycle.Decide | server/server.js:179-188 | approve / deny sends exactly one event, to the addressed socket, approved iff approving |
| Lifecycle.JoinRoom | server/server.js:191-245 | a missing room is created empty; exactly one participant with no sentiment is appended after the earlier ones, which are unchanged; an admin join replaces `admin`; nothing else changes; the distribution invariant is kept; room state is broadcast |
| SentimentTally.TallyAppendSilent | server/server.js:220-231 | appending a participant without a sentiment leaves the recount unchanged |
| Lifecycle.UpdateName | server/server.js:248-265 | only the requester's first record is renamed, length and all other records unchanged, then one broadcast; a socket with no record is a no-op with no emission |
| Lifecycle.SubmitSentiment | server/server.js:268-300 | only the requester's record changes; afterwards the stored distribution equals a recount, whatever it held before; `sentiment-updated` then `room-state` are emitted; unknown socket is a no-op |
| SentimentTally.Recount | server/server.js:279-284 | the zero-then-increment loop yields, for every kind, the number of participants reporting it |
| SentimentTally.Decrement | server/server.js:321-323 | only the removed participant's kind goes down by one; no kind changes when it had none |
| SentimentTally.CountRemoveAt | server/server.js:317-323 | splicing out one participant lowers its own kind's count by one and leaves the others |
| SentimentTally.CountUpdateAt | server/server.js:276 | overwriting one participant swaps its contribution to the counts for the new one's |
| SentimentTally.DecrementMatchesRecount | server/server.js:317-323 | the decrement strategy of remove / disconnect agrees with a full recount of the remaining participants |
| Lifecycle.Evict | server/server.js:314-323 | the first record of the target is spliced out and its kind decremented; nothing happens iff the target has no record; the invariant is kept |
| Lifecycle.RemoveUser | server/server.js:303-335 | a requester without its own admin flag gets the error "Only instructors can remove users" on its socket and the room is unchanged; an unknown target is a silent no-op; otherwise exactly one record goes, the target's sentiment is taken off the tally, every other field (`admin` included) is untouched, the target is told, and the room is re-broadcast |
| Lifecycle.MuteUser | server/server.js:338-352 | one emission: `force-mute` to the target iff the requester is an admin, otherwise the error "Only instructors can mute users" to the requester |
| Lifecycle.DisconnectFrom | server/server.js:904-918 | in one room: the socket's first record is removed and the room re-broadcast; nothing changes and nothing is emitted when it has none; the invariant is kept |
| Lifecycle.DisconnectIdempotent | server/server.js:904-918 | for a socket holding at most one record, a second sweep of the room changes nothing and emits nothing |
| Lifecycle.DisplacedAdminKeepsPowers | server/server.js:307-308 | after two admins join, `admin` names the second, yet the first still passes the admin check and removes a user |
| McqGen.ToMcq | server/server.js:999-1004 | a raw entry passing the filter becomes a well-formed question |
| McqGen.ValidMcqs | server/server.js:999-1004 | the kept entries are well formed and no more than the input; every kept entry is the record of a passing entry and every passing entry is kept; none are kept iff no entry passes the filter |
| McqGen.ValidMcqsAppend | server/server.js:999-1004 | filtering distributes over concatenation, so kept entries stay in reply order |
| McqGen.AnswerOutsideOptionsKept | server/server.js:999-1004 | an entry whose answer is not among its options is still kept |
| McqGen.Fallback | server/server.js:1019-1024 | the fallback yields the mock set for a defined topic and fails exactly when the topic is undefined |
| McqGen.GenerateMcqs | server/server.js:925-1025 | a reply with valid entries gives its first `count` valid entries in order; every other reply (no key, failed call, bad JSON, not an array, nothing valid) falls back to the mock set; all returned questions are well formed |
| McqGen.MockMcqs | server/server.js:1027-1166 | the React set when the lower-cased prompt contains "react", else the JavaScript set for "javascript" or "js", else the generic set titled with the capitalised prompt |
| McqGen.MockShape | server/server.js:1037-1166 | every mock set has five questions of four options each, and each answer is one of its options |
| McqGen.ReactCheckedFirst | server/server.js:1037-1072 | a prompt naming both React and JavaScript gets the React set, which differs from the JavaScript set |
| Quiz.Record | server/server.js:427-432 | a new socket gets an entry at the end; an existing one has only that question's answer overwritten and every other entry is kept |
| Quiz.RecordSockets | server/server.js:427-432 | the responding sockets grow by exactly this socket, and distinct keys stay distinct |
| Quiz.LastWriteWins | server/server.js:427-432 | answering the same question twice is the same as answering once with the second answer, and the stored answer is the second |
| Quiz.RecordTwiceNew | server/server.js:427-432 | a socket with no entry that answers a question twice ends with one entry at the end holding only the second answer |
| Quiz.RecordTwiceExisting | server/server.js:427-432 | a socket with an entry that answers a question twice has that entry hold the second answer, as if it had answered once |
| Quiz.RecordKeepsOthers | server/server.js:427-432 | every other (socket, question) pair reads the same stored answer before and after |
| Quiz.SocketsCount | server/server.js:435 | with distinct keys, the map's size is the number of responding sockets |
| Quiz.SubmitResponse | server/server.js:420-443 | an unknown session is a no-op; otherwise only that session's responses change, and the broadcast count is the number of distinct responding sockets against `participants - 1` |
| Quiz.Tick | server/server.js:602 | incrementing a histogram key raises that key by one, leaves every other key, raises the total by one, and keeps keys distinct |
| Quiz.Histogram | server/server.js:599-603 | each bucket holds the number of responders whose answer (or "undefined" when missing) is that key; the buckets sum to the number of responders; keys are distinct |
| Quiz.ExactIsKeyCount | server/server.js:599-612 | for any answer other than the literal "undefined", the correct count equals that answer's bucket |
| Quiz.UndefinedAnswerQuirk | server/server.js:599-612 | a skipped question lands in the "undefined" bucket but does not count as correct for an answer "undefined" |
| Quiz.QuestionReportOf | server/server.js:598-614 | one question's report: its index, question and answer; histogram totals equal the responders; the correct count is the number of responders whose stored answer equals the question's answer exactly, at most the responders, and, for an answer other than the string "undefined", equals the answer's bucket |
| Quiz.Report | server/server.js:594-615 | the report carries the session id, the participant count given, the number of responders, and one question report per question in order |
| Quiz.GetMcqAnalytics | server/server.js:584-618 | nothing is emitted unless the requester is an admin and the session exists; then exactly one report to the requester, counting `participants - 1` |
| Quiz.GenerateMcq | server/server.js:377-417 | a non-admin gets "Only admins can generate MCQs" and the room is unchanged; a generator failure sends "Failed to generate MCQs: " plus the generator's message to the requester only; success appends exactly one fresh session holding the generated questions (1 to 5, well-formed), with prompt "topic (difficulty)" where the difficulty defaults to "Medium", keeps earlier sessions, and broadcasts it |
| Quiz.LastN | server/server.js:868 | `slice(-n)`: for n at least 1 the last `min(n, length)` entries; for n = 0 the whole sequence, as `slice(-0)` is `slice(0)` |
| Quiz.SummaryPrompt | server/server.js:852-871 | no prompt iff there are neither insights nor transcripts; the insights prompt quotes the insights joined by ". " and ends with the engagement score out of 100; otherwise the prompt quotes the texts of the last ten transcripts joined by spaces |
| Quiz.GenerateFromSummary | server/server.js:846-897 | a non-admin gets "Only instructors can generate questions"; without content the requester gets the no-content error; otherwise one session marked as from the summary, built from the prompt and three requested questions, is appended and broadcast |
| Quiz.SummaryFallbackIgnoresCount | server/server.js:876 | when the generator call fails, the summary session holds five questions although three were requested |
| Transcripts.Append | server/server.js:454-465 | the room's transcript grows by one: the earlier entries stay in place, the new entry is last, nothing else changes, and the broadcast carries the entry and the new total |
| Transcripts.SendTranscriptChunk | server/server.js:448-465 | one entry is appended after the earlier ones, with the given text and the speaker or "Instructor"; the broadcast names it and the new count |
| Transcripts.AudioChunkRecorded | server/server.js:486-539 | a transcription that trims to nothing changes nothing and emits nothing; any other is appended as the instructor's and announced |
| Transcripts.Entries | server/server.js:454-458 | a run of chunks yields one entry per chunk, in order, each with its chunk's text and speaker or "Instructor" |
| Transcripts.ChunkRunAppends | server/server.js:448-465 | after any run of `send-transcript-chunk` events the transcript is the old one followed by every chunk's entry in order, and nothing else in the room changed |
| Transcripts.ChunkRunLastOut | server/server.js:448-465 | the last chunk of a run adds exactly one announcement after the earlier ones: its entry with the new count |
| Transcripts.ChunkRunAnnounces | server/server.js:448-465 | a run of chunks emits one `transcript-created` per chunk, in order; the k-th carries that chunk's entry and the count of the old transcript plus k + 1 |
| Transcripts.Kept | server/server.js:486-539 | the kept transcriptions are at most as many as the inputs, each non-blank and the instructor's |
| Transcripts.KeptMembers | server/server.js:486-539 | every kept entry is the instructor's entry of a non-blank transcription, and every non-blank transcription is kept |
| Transcripts.KeptAppend | server/server.js:486-539 | keeping distributes over concatenation, so kept entries stay in arrival order with their multiplicity |
| Transcripts.AudioRunAppends | server/server.js:486-539 | after any run of audio chunks the transcript is the old one followed by the non-blank transcriptions in order, and nothing else in the room changed |
| Transcripts.AudioRunLastOut | server/server.js:486-539 | the last transcription of a run adds one announcement with the new count when it is not blank, and none when it is |
| Transcripts.AudioRunAnnounces | server/server.js:486-539 | a run of audio chunks emits one `transcript-created` per kept transcription, in order; the k-th carries the k-th kept entry and the count of the old transcript plus k + 1 |
| Transcripts.Merge | server/server.js:554 | for each of the five fields: a reply that has it overrides the summary, a reply without it keeps the summary's |
| Transcripts.Overlay | server/server.js:554 | two replies overlaid have a field exactly when either has it |
| Transcripts.MergeTwice | server/server.js:554 | spreading one reply and then another equals spreading their overlay once, the later reply winning |
| Transcripts.MergeIdempotent | server/server.js:554 | merging the same reply twice equals merging it once |
| Transcripts.MergeEmpty | server/server.js:554 | an empty reply object leaves the summary unchanged |
| Transcripts.EndMeeting | server/server.js:541-581 | only the summary can change, and only when there are transcripts and a reply; `meeting-ended` carries the resulting summary |
| Transcripts.EndWithoutTranscripts | server/server.js:548-549 | without transcripts the summariser's answer is irrelevant and the stored summary is announced |
| Chat.SendMessage | server/server.js:621-653 | exactly one message with the fresh id and no reactions is appended after the earlier ones and broadcast; nothing else changes |
| Chat.Without | server/server.js:672 | the filter keeps exactly the other names, keeps a list without the name as is, and keeps names distinct |
| Chat.WithoutConcat | server/server.js:672 | the filter distributes over concatenation, so the remaining reactors keep their order |
| Chat.Toggle | server/server.js:663-676 | an absent name is appended under its kind; a present one is filtered out, the others keeping their order (the kept list is `Without` of the old one), and the kind deleted iff no other name is left; other kinds are untouched; kinds stay non-empty lists of distinct names |
| Chat.ToggleTwiceRestores | server/server.js:663-676 | reacting twice with a name not yet listed returns the reactions map to its prior state |
| Chat.ToggleTwiceListed | server/server.js:663-676 | the same when the kind already had reactors: the name is appended, then filtered out again |
| Chat.ToggleTwiceUnlisted | server/server.js:663-676 | the same for a new kind: its entry is created, then deleted once empty |
| Chat.ToggleTwiceSameReactors | server/server.js:663-676 | reacting twice with a name already listed restores the kinds and the set of reactors under each |
| Chat.ToggleTwiceReorders | server/server.js:668-669 | that second case may reorder: toggling "b" twice over ["b", "c"] gives ["c", "b"] |
| Chat.ReactToMessage | server/server.js:656-683 | an unknown message is a no-op; otherwise only the first message with the id gets its reactions toggled, and those reactions are broadcast |
| Server.Lookup | server/server.js:161 | a room is found iff its code is a key, and it is that key's record |
| Server.Put | server/server.js:232 | `meetings.set`: the record is stored under its id; an existing code keeps its place; a new code goes last; well-formedness is kept |
| Server.Sweep | server/server.js:903-920 | the sweep never adds or removes a room |
| Server.SweepLeavesOthers | server/server.js:903-920 | a room the sweep does not visit keeps its record |
| Server.SweepVisits | server/server.js:903-920 | each visited room, listed once, ends exactly as dropping the socket from it alone would leave it |
| Server.SweepSilent | server/server.js:903-920 | the sweep emits nothing iff no visited room holds the socket |
| Server.BroadcastsAgree | server/server.js:903-920 | the owed broadcasts depend only on the listed rooms |
| Server.SweepEmits | server/server.js:903-920 | with no code listed twice, the sweep emits exactly one broadcast per room holding the socket, in list order, each showing that room as dropping the socket from it alone would leave it |
| Server.Disconnect | server/server.js:900-921 | the set of rooms and their order never change; each room is as after its own sweep; the emissions are one re-broadcast per room that held the socket, in the map's insertion order; nothing is emitted iff no room had the socket |
| Server.DispatchLifecycle | server/server.js:248-355 | renaming, sentiment and removal keep the room's code; `mute-user` only emits and leaves the room as it was |
| Server.DispatchQuiz | server/server.js:377-897 | quiz handlers keep the room's code; `get-mcq-analytics` only emits and leaves the room as it was |
| Server.DispatchContent | server/server.js:448-683 | transcript, summary and chat handlers keep the room's code |
| Server.Dispatch | server/server.js:248-897 | an event on an existing room never changes its code, and the two emit-only events leave it as it was |
| Server.HandleInRoom | server/server.js:248-897 | an event naming an unknown room changes nothing and emits nothing, except `generate-from-summary`, which reports "Meeting not found"; for an existing room only that room's record changes, to the handler's result, the order of codes is kept, and the emissions are the handler's; the registry stays well formed |
| Server.HandleSession | server/server.js:160-245 | admission events emit the handler's messages and never touch the registry; `join-room` stores the joined room under its code, leaves every other room alone, appends the code iff it is new, and emits the handler's broadcast; `disconnect` is the sweep; the registry stays well formed |
| Server.Handle | server/server.js:156-921 | every event keeps the registry well formed; unknown rooms and emit-only events leave it untouched; an event on an existing room replaces only that room's record with the handler's result, keeps the order of codes and emits the handler's messages; `join-room` changes only its own room and appends a new code last |
| Server.ApplyKeepsInv | server/server.js:232 | storing a room that keeps the room invariant keeps the registry invariant |
| Server.JoinKeepsRoomInv | server/server.js:191-245 | joining keeps the room invariant: counts agree, response keys distinct, reactions well formed |
| Server.UpdateNameKeepsRoomInv | server/server.js:248-265 | renaming keeps the room invariant |
| Server.SubmitSentimentKeepsRoomInv | server/server.js:268-300 | submitting a sentiment keeps the room invariant |
| Server.RemoveUserKeepsRoomInv | server/server.js:303-335 | removing a user keeps the room invariant |
| Server.DisconnectFromKeepsRoomInv | server/server.js:904-918 | a disconnect keeps each room's invariant and its id |
| Server.DisconnectPreservesInv | server/server.js:900-921 | the whole sweep keeps the registry invariant |
| Server.GenerateMcqKeepsRoomInv | server/server.js:377-417 | generating a session keeps the room invariant |
| Server.SubmitResponseKeepsRoomInv | server/server.js:420-443 | recording an answer keeps the room invariant |
| Server.GenerateFromSummaryKeepsRoomInv | server/server.js:837-897 | generating from the summary keeps the room invariant |
| Server.SendMessageKeepsRoomInv | server/server.js:621-653 | sending a message keeps the room invariant |
| Server.ReactKeepsRoomInv | server/server.js:656-683 | reacting keeps the room invariant |
| Server.DispatchLifecycleKeepsRoomInv | server/server.js:248-355 | each participant-list handler keeps the room invariant |
| Server.DispatchQuizKeepsRoomInv | server/server.js:377-897 | each quiz handler keeps the room invariant |
| Server.DispatchContentKeepsRoomInv | server/server.js:448-683 | each transcript, summary and chat handler keeps the room invariant |
| Server.DispatchKeepsRoomInv | server/server.js:248-897 | every per-room handler keeps the room invariant |
| Server.HandlePreservesInv | server/server.js:156-921 | every inbound event keeps the invariant, so it holds after any sequence of events from the empty registry |
| Client.YoutubeEmbedUrl | src/pages/MeetingRoom.jsx:57-76 | short links are checked first, then watch links, then embed links; an embed link gives the embed URL of the id after `embed/` when that id is non-empty; an empty id or an unrecognised URL gives no URL; any URL given is the auto-playing embed URL of a non-empty id |
| Client.IdPosition | src/pages/MeetingRoom.jsx:60-66 | the extracted id sits right after the first marker, contains neither `?` nor the marker, and is followed by the end, a `?` or the marker again |
| Client.ShortLinkRoundTrip | src/pages/MeetingRoom.jsx:60-70 | `https://youtu.be/<id>` converts to the embed URL of `<id>` for every non-empty id free of `?` and of the marker |
| Client.Tick | src/pages/MeetingRoom.jsx:99-108 | the new length is `min(old + 1, 5)`, the last point is the current one, and the points before it are the most recent earlier points |
| Client.Refresh | src/pages/MeetingRoom.jsx:118-134 | the length never changes; when the newest point has the current time only that point is replaced; otherwise the history is returned as it was |
| Client.RefreshAmendsTick | src/pages/MeetingRoom.jsx:99-134 | a sentiment change in the minute of a tick amends that tick's point to the new counts |
| Client.WindowBounded | src/pages/MeetingRoom.jsx:99-134 | neither updater takes a window of at most five points past five |
| Client.Receive | src/pages/MeetingRoom.jsx:274-277 | a received message is appended after the earlier ones |
| Client.ApplyReactions | src/pages/MeetingRoom.jsx:279-285 | only messages with the id get the new reactions; every other message and the length are unchanged |
| Client.ClientMirrorsServer | src/pages/MeetingRoom.jsx:279-285 | with unique ids, applying the server's `message-reaction-updated` to a copy of its list gives the server's new list |
| Client.ClientMirrorsSend | src/pages/MeetingRoom.jsx:274-277 | appending the server's `receive-message` to a copy of its list gives the server's new list |
| Client.Resolve | src/pages/MeetingRoom.jsx:1543 | approving or denying drops exactly the entries of that socket: every kept entry was pending and is another socket's, and every other socket's entry is kept |
| Client.ResolveAppend | src/pages/MeetingRoom.jsx:1552 | resolving distributes over concatenation, so kept entries keep their order |
| Client.ResolveUndoesRequest | src/pages/MeetingRoom.jsx:200-201 | deciding on a request just received from a new socket restores the earlier list |
| Client.ResolveKeepsOthers | src/pages/MeetingRoom.jsx:1543 | a list without entries of the socket is kept as is |
| Client.HandleNameChange | src/pages/MeetingRoom.jsx:143-151 | the name changes iff the draft is not blank and differs; `update-name` is sent iff additionally joined and connected, carrying the draft; editing always ends |
| Client.RenameTwiceIsQuiet | src/pages/MeetingRoom.jsx:143-151 | submitting the same draft again sends nothing and changes nothing |
| Client.RenameReachesServer | src/pages/MeetingRoom.jsx:147 | the name the client shows after a sent rename is the name the server stores for its socket |

## Left out

- Quiz.Histogram: the buckets are in first-answer order; a JavaScript object lists integer-like keys (say "2" and "10") first in ascending order, so the order of keys in the emitted `responses` object (server/server.js:599-603) is not modelled, only the count under each key.
- HTTP routes, meeting-code generation and every database call: external I/O around the
  in-memory state; a route-created meeting has the same initial record as `Room.NewMeeting`.
- The generative service, the transcriber and the summariser are not modelled. Their results
  are parameters: an already-parsed MCQ reply or its failure, a transcription string, and an
  optional summary object.
- The MCQ reply's elements are objects whose fields are strings, or a string array for
  options. Non-string truthy fields, `null` elements (which make the filter throw and fall
  back), and extra fields the server passes through are not represented.
- The second `audio-chunk-recorded` registration: it calls functions that are not defined in
  the code, and its float averaging is out of scope. Only the first handler is modelled.
- `get-class-analysis`, the WebRTC signalling relay (`offer`, `answer`, `ice-candidate`) and
  the YouTube sharing events: pass-through emits that touch no room state.
- Concurrency: every handler is one atomic step. Interleavings of other events across the
  `await`s in the quiz, transcript and end-meeting handlers are not modelled.
- Timestamps (`joinedAt`, `createdAt`, message and transcript times), the session's
  `responses` field on the meeting itself, and logging.
- `SubmitSentiment` takes only the three sentiment values or none. A different string would
  create an extra counter key in the source.
- `Text.ToLower` and `Text.Capitalize` map ASCII letters only; JavaScript's full Unicode case
  mapping is not modelled.
- Reaction kinds and histogram keys are plain map keys. JavaScript object-prototype keys
  such as `constructor` are not modelled.
- Transcripts.SummaryReply: the summariser's object is represented by the five known fields only, with an integer `engagementScore` and a string-array `mainInsights`. The model therefore does not cover these behaviours of `{ ...summary, ...reply }` at server/server.js:554. A fractional score would print as such in the question prompt. Extra keys survive the spread. A reply that is a number or a boolean adds no keys, and a string or array reply adds only index keys ("0", "1", ...), so the five fields stay as they were. A non-empty string `mainInsights` passes the length test at server/server.js:860 and makes the `join` at server/server.js:863 throw, so the requester gets "Failed to generate question". A `mainInsights` without a positive `length`, such as a plain object, takes the transcript branch at server/server.js:867-869.
- Client.YoutubeEmbedUrl: the `youtube.com/watch` branch takes the `v` parameter that the
  browser's URL parser would find as an input, since URL parsing is not modelled.
- Client.Tick, Client.Refresh: the current minute is an input string; clocks, timers and
  the instructor / joined guards around the updaters are not modelled.
- Client media, speech recognition, recording and all UI components.

=== FILE: chat.dfy ===
/** Chat handlers of server/server.js: `send-message` appends with empty reactions, and
    `react-to-message` toggles one name under one reaction kind of one message. */
module Chat {
  import opened Wrappers
  import opened Room

  /** `messages.find(m => m.id === id)`, as an index. */
  function MessageIndex(ms: seq<Message>, id: string): (r: Option<nat>)
    ensures r.Some? ==> r.value < |ms| && ms[r.value].id == id
    ensures r.Some? ==> forall j :: 0 <= j < r.value ==> ms[j].id != id
    ensures r.None? ==> forall j :: 0 <= j < |ms| ==> ms[j].id != id
  {
    if ms == [] then None
    else if ms[0].id == id then Some(0)
    else match MessageIndex(ms[1..], id)
      case Some(i) => Some(i + 1)
      case None => None
  }

  /** `send-message`: a message with the server-assigned id `uuid` and no reactions is
      appended and broadcast. */
  function SendMessage(m: Meeting, uuid: string, userId: string, userName: string, userRole: string, text: string): (r: RoomStep)
    ensures |r.room.messages| == |m.messages| + 1 && r.room.messages[..|m.messages|] == m.messages
    ensures var msg := r.room.messages[|m.messages|];
            && msg == Message(uuid, userId, userName, userRole, text, map[])
            && r.out == [Emit(ToRoom(m.id), ReceiveMessage(msg))]
    ensures r.room == m.(messages := r.room.messages)
  {
    var msg := Message(uuid, userId, userName, userRole, text, map[]);
    RoomStep(m.(messages := m.messages + [msg]), [Emit(ToRoom(m.id), ReceiveMessage(msg))])
  }

  predicate NoDuplicates(xs: seq<string>) {
    forall i, j :: 0 <= i < j < |xs| ==> xs[i] != xs[j]
  }

  /** The shape toggling maintains: every stored kind has a non-empty list of distinct names. */
  predicate WellFormedReactions(rx: map<string, seq<string>>) {
    forall k :: k in rx ==> |rx[k]| > 0 && NoDuplicates(rx[k])
  }

  /** `xs.filter(u => u !== name)`. */
  function Without(xs: seq<string>, name: string): (r: seq<string>)
    ensures forall x :: x in r <==> x in xs && x != name
    ensures name !in xs ==> r == xs
    ensures NoDuplicates(xs) ==> NoDuplicates(r)
    ensures |r| <= |xs|
  {
    if xs == [] then []
    else if xs[0] == name then Without(xs[1..], name)
    else
      var rest := Without(xs[1..], name);
      assert NoDuplicates(xs) ==> forall j :: 0 <= j < |xs[1..]| ==> xs[1..][j] != xs[0];
      assert NoDuplicates(xs) ==> xs[0] !in xs[1..];
      [xs[0]] + rest
  }

  /** The reaction toggle: a name not yet listed under `kind` is appended (creating the kind);
      a listed name is removed, and the kind disappears once its list is empty. Other kinds
      are untouched. */
  function Toggle(rx: map<string, seq<string>>, kind: string, name: string): (r: map<string, seq<string>>)
    ensures forall k :: k != kind ==> (k in r <==> k in rx) && (k in rx ==> r[k] == rx[k])
    ensures (kind !in rx || name !in rx[kind]) ==> kind in r && r[kind] == (if kind in rx then rx[kind] else []) + [name]
    ensures kind in rx && name in rx[kind] ==>
              (kind in r <==> exists x :: x in rx[kind] && x != name) &&
              (kind in r ==> forall x :: x in r[kind] <==> x in rx[kind] && x != name) &&
              (kind in r ==> r[kind] == Without(rx[kind], name))
    ensures WellFormedReactions(rx) ==> WellFormedReactions(r)
  {
    var current := if kind in rx then rx[kind] else [];
    if name !in current then rx[kind := current + [name]]
    else
      var rest := Without(current, name);
      if |rest| == 0 then rx - {kind}
      else
        assert rest[0] in rest;
        rx[kind := rest]
  }

  /** Toggling the same name twice under a kind where it was not listed restores the map. */
  lemma ToggleTwiceRestores(rx: map<string, seq<string>>, kind: string, name: string)
    requires WellFormedReactions(rx)
    requires kind !in rx || name !in rx[kind]
    ensures Toggle(Toggle(rx, kind, name), kind, name) == rx
  {
    if kind in rx {
      ToggleTwiceListed(rx, kind, name);
    } else {
      ToggleTwiceUnlisted(rx, kind, name);
    }
  }

  lemma ToggleTwiceListed(rx: map<string, seq<string>>, kind: string, name: string)
    requires WellFormedReactions(rx)
    requires kind in rx && name !in rx[kind]
    ensures Toggle(Toggle(rx, kind, name), kind, name) == rx
  {
    var current := rx[kind];
    var once := rx[kind := current + [name]];
    assert Toggle(rx, kind, name) == once;
    WithoutAppend(current, name);
    assert |current| > 0;
    assert Toggle(once, kind, name) == once[kind := current];
    assert once[kind := current] == rx;
  }

  lemma ToggleTwiceUnlisted(rx: map<string, seq<string>>, kind: string, name: string)
    requires kind !in rx
    ensures Toggle(Toggle(rx, kind, name), kind, name) == rx
  {
    var once := rx[kind := [name]];
    assert Toggle(rx, kind, name) == once by {
      assert [] + [name] == [name];
    }
    assert Without([name], name) == [];
    assert Toggle(once, kind, name) == once - {kind};
    assert once - {kind} == rx;
  }

  /** The filter keeps the remaining names in their original order: it distributes over
      concatenation. */
  lemma {:induction false} WithoutConcat(a: seq<string>, b: seq<string>, name: string)
    ensures Without(a + b, name) == Without(a, name) + Without(b, name)
    decreases |a|
  {
    if a == [] {
      assert a + b == b;
    } else {
      assert (a + b)[0] == a[0];
      assert (a + b)[1..] == a[1..] + b;
      WithoutConcat(a[1..], b, name);
    }
  }

  lemma {:induction false} WithoutAppend(xs: seq<string>, name: string)
    requires name !in xs
    ensures Without(xs + [name], name) == xs
  {
    if xs != [] {
      assert (xs + [name])[1..] == xs[1..] + [name];
      WithoutAppend(xs[1..], name);
    } else {
      assert xs + [name] == [name];
    }
  }

  /** Toggling a name that was already listed twice puts it back, at the end of the list: the
      set of reactors under every kind is restored, though not necessarily their order. */
  lemma ToggleTwiceSameReactors(rx: map<string, seq<string>>, kind: string, name: string)
    requires WellFormedReactions(rx)
    requires kind in rx && name in rx[kind]
    ensures var twice := Toggle(Toggle(rx, kind, name), kind, name);
            twice.Keys == rx.Keys && forall k, x :: k in rx ==> (x in twice[k] <==> x in rx[k])
  {
  }

  /** Moving a reaction to the end: toggling "b" twice over ["b", "c"] yields ["c", "b"]. */
  lemma ToggleTwiceReorders()
    ensures var rx := map["like" := ["b", "c"]];
            Toggle(Toggle(rx, "like", "b"), "like", "b") == map["like" := ["c", "b"]]
  {
    var rx := map["like" := ["b", "c"]];
    assert ["b", "c"][1..] == ["c"];
    assert Without(["b", "c"], "b") == ["c"];
    var once := Toggle(rx, "like", "b");
    assert once == map["like" := ["c"]];
    assert "b" !in ["c"];
    assert Toggle(once, "like", "b") == map["like" := ["c"] + ["b"]];
    assert ["c"] + ["b"] == ["c", "b"];
  }

  /** `react-to-message`: toggles on the first message with `messageId` and broadcasts that
      message's new reactions; an unknown message changes nothing and emits nothing. */
  function ReactToMessage(m: Meeting, messageId: string, kind: string, name: string): (r: RoomStep)
    ensures MessageIndex(m.messages, messageId).None? ==> r == RoomStep(m, [])
    ensures MessageIndex(m.messages, messageId).Some? ==>
      var i := MessageIndex(m.messages, messageId).value;
      && |r.room.messages| == |m.messages|
      && r.room.messages[i] == m.messages[i].(reactions := Toggle(m.messages[i].reactions, kind, name))
      && (forall j :: 0 <= j < |m.messages| && j != i ==> r.room.messages[j] == m.messages[j])
      && r.room == m.(messages := r.room.messages)
      && r.out == [Emit(ToRoom(m.id), MessageReactionUpdated(messageId, r.room.messages[i].reactions))]
  {
    match MessageIndex(m.messages, messageId)
    case None => RoomStep(m, [])
    case Some(i) =>
      var msg := m.messages[i].(reactions := Toggle(m.messages[i].reactions, kind, name));
      RoomStep(m.(messages := m.messages[i := msg]), [Emit(ToRoom(m.id), MessageReactionUpdated(messageId, msg.reactions))])
  }
}

=== FILE: client.dfy ===
/** The pure helpers of src/pages/MeetingRoom.jsx: YouTube link conversion, the bounded
    engagement-history window, the chat reducers, the waiting-room request list, and the
    rename guard. */
module Client {
  import opened Wrappers
  import opened Text
  import opened Room
  import Chat
  import Lifecycle

  // ---------------------------------------------------------------- YouTube links

  const ShortMarker := "youtu.be/"
  const WatchMarker := "youtube.com/watch"
  const EmbedMarker := "youtube.com/embed/"
  const EmbedPrefix := "https://www.youtube.com/embed/"
  const EmbedSuffix := "?autoplay=1"

  /** The embeddable, auto-playing URL of a video id. */
  function EmbedUrl(id: string): string {
    EmbedPrefix + id + EmbedSuffix
  }

  /** `url.split(marker)[1].split('?')[0]`. */
  function IdAfter(url: string, marker: string): string {
    BeforeFirst(SecondPiece(url, marker), "?")
  }

  /** `getYoutubeEmbedUrl(url)`. `watchParam` is the `v` query parameter the browser's URL
      parser finds for a `youtube.com/watch` link (`None` when it is absent or the URL does
      not parse). Short links are recognised first, then watch links, then embed links; an
      empty id or an unrecognised URL gives `None`. */
  function YoutubeEmbedUrl(url: string, watchParam: Option<string>): (r: Option<string>)
    ensures Contains(url, ShortMarker) ==> r == (if IdAfter(url, ShortMarker) != "" then Some(EmbedUrl(IdAfter(url, ShortMarker))) else None)
    ensures !Contains(url, ShortMarker) && Contains(url, WatchMarker) ==> r == (if Truthy(watchParam) then Some(EmbedUrl(watchParam.value)) else None)
    ensures !Contains(url, ShortMarker) && !Contains(url, WatchMarker) && Contains(url, EmbedMarker) ==>
              r == (if IdAfter(url, EmbedMarker) != "" then Some(EmbedUrl(IdAfter(url, EmbedMarker))) else None)
    ensures !Contains(url, ShortMarker) && !Contains(url, WatchMarker) && !Contains(url, EmbedMarker) ==> r.None?
    ensures r.Some? ==> exists id :: id != "" && r.value == EmbedUrl(id)
  {
    var videoId :=
      if Contains(url, ShortMarker) then Some(IdAfter(url, ShortMarker))
      else if Contains(url, WatchMarker) then watchParam
      else if Contains(url, EmbedMarker) then Some(IdAfter(url, EmbedMarker))
      else Some("");
    if Truthy(videoId) then Some(EmbedUrl(videoId.value)) else None
  }

  /** Where the extracted id sits in the URL: right after the first marker, free of `?` and
      of the marker, and followed by the end of the URL, a `?`, or the marker again. */
  lemma IdPosition(url: string, marker: string) returns (pre: string, post: string)
    requires |marker| > 0 && Contains(url, marker)
    ensures url == pre + marker + IdAfter(url, marker) + post
    ensures !Contains(pre, marker)
    ensures !Contains(IdAfter(url, marker), "?") && !Contains(IdAfter(url, marker), marker)
    ensures post == [] || post[0] == '?' || (|post| >= |marker| && post[..|marker|] == marker)
  {
    pre := BeforeFirst(url, marker);
    var after := AfterFirst(url, marker);
    assert url == pre + marker + after && !Contains(pre, marker) by {
      SplitAround(url, marker);
    }
    var piece := SecondPiece(url, marker);
    var id := IdAfter(url, marker);
    var post1 := FirstPiece(after, marker);
    var post0 := FirstPiece(piece, "?");
    assert !Contains(id, marker) by {
      assert (id + post0)[..|id|] == id;
      NotContainsPrefix(piece, id, marker);
    }
    post := Assemble(url, pre, marker, after, piece, id, post0, post1);
  }

  /** The concatenation step of `IdPosition`, free of any search. */
  lemma Assemble(url: string, pre: string, marker: string, after: string, piece: string, id: string,
                 post0: string, post1: string) returns (post: string)
    requires url == pre + marker + after && after == piece + post1 && piece == id + post0
    requires post0 == [] || (|post0| >= 1 && post0[..1] == "?")
    requires post1 == [] || (|post1| >= |marker| && post1[..|marker|] == marker)
    ensures url == pre + marker + id + post
    ensures post == [] || post[0] == '?' || (|post| >= |marker| && post[..|marker|] == marker)
  {
    post := post0 + post1;
    assert url == pre + marker + (id + post0 + post1);
    if post0 == [] {
      assert post == post1;
    } else {
      assert post[0] == post0[..1][0];
    }
  }

  /** `s.split(sep)[0]` followed by what remains: nothing, or `sep` and the rest. */
  lemma FirstPiece(s: string, sep: string) returns (rest: string)
    requires |sep| > 0
    ensures s == BeforeFirst(s, sep) + rest
    ensures !Contains(BeforeFirst(s, sep), sep)
    ensures rest == [] || (|rest| >= |sep| && rest[..|sep|] == sep)
  {
    if Contains(s, sep) {
      SplitAround(s, sep);
      rest := sep + AfterFirst(s, sep);
      assert s == BeforeFirst(s, sep) + rest;
    } else {
      rest := [];
      assert s == BeforeFirst(s, sep) + rest;
    }
  }

  /** A prefix of a string free of `sub` is free of it too. */
  lemma NotContainsPrefix(s: string, p: string, sub: string)
    requires |p| <= |s| && s[..|p|] == p && !Contains(s, sub)
    ensures !Contains(p, sub)
  {
    if Contains(p, sub) {
      var j := IndexOf(p, sub).value;
      assert s[..|p|][j..j + |sub|] == s[j..j + |sub|];
      assert OccursAt(s, sub, j);
    }
  }

  /** Text appended after a string does not move the first occurrence found inside it. */
  lemma IndexOfExtend(p: string, rest: string, sub: string)
    requires IndexOf(p, sub).Some?
    ensures IndexOf(p + rest, sub) == IndexOf(p, sub)
  {
    var s := p + rest;
    var i := IndexOf(p, sub).value;
    assert s[i..i + |sub|] == p[i..i + |sub|];
    forall j | 0 <= j < i
      ensures !OccursAt(s, sub, j)
    {
      assert s[j..j + |sub|] == p[j..j + |sub|];
      assert !OccursAt(p, sub, j);
    }
    IndexOfFirst(s, sub, i);
  }

  /** The first occurrence is the one with no earlier occurrence. */
  lemma IndexOfFirst(s: string, sub: string, i: nat)
    requires OccursAt(s, sub, i) && forall j :: 0 <= j < i ==> !OccursAt(s, sub, j)
    ensures IndexOf(s, sub) == Some(i)
  {
  }

  /** A short link converts to the embed URL of its id. */
  lemma ShortLinkRoundTrip(id: string, watchParam: Option<string>)
    requires id != "" && !Contains(id, "?") && !Contains(id, ShortMarker)
    ensures YoutubeEmbedUrl("https://youtu.be/" + id, watchParam) == Some(EmbedUrl(id))
  {
    var head := "https://youtu.be/";
    var url := head + id;
    assert IndexOf(head, ShortMarker) == Some(8) by {
      forall j | 0 <= j < 8
        ensures !OccursAt(head, ShortMarker, j)
      {
        assert head[..8] == "https://";
        assert head[j] == head[..8][j];
        assert head[j] != 'y';
        assert head[j..j + 9][0] == head[j] && ShortMarker[0] == 'y';
      }
      assert head[8..17] == ShortMarker;
      IndexOfFirst(head, ShortMarker, 8);
    }
    IndexOfExtend(head, id, ShortMarker);
    assert url[17..] == id;
    assert AfterFirst(url, ShortMarker) == id;
  }

  // ---------------------------------------------------------------- engagement history

  /** One point of the instructor's engagement chart. */
  datatype Point = Point(time: string, good: int, neutral: int, negative: int)

  function PointOf(time: string, d: Distribution): Point {
    Point(time, d.good, d.neutral, d.negative)
  }

  const Window := 5

  /** The 30-second tick: append the current counts and keep the last five points. */
  function Tick(history: seq<Point>, time: string, d: Distribution): (h: seq<Point>)
    ensures |h| == if |history| + 1 < Window then |history| + 1 else Window
    ensures h[|h| - 1] == PointOf(time, d)
    ensures h[..|h| - 1] == history[|history| - (|h| - 1)..]
  {
    var longer := history + [PointOf(time, d)];
    if |longer| <= Window then longer else longer[|longer| - Window..]
  }

  /** On a sentiment change: when the newest point carries the current minute, its counts are
      replaced; otherwise the history is returned as it was. */
  function Refresh(history: seq<Point>, time: string, d: Distribution): (h: seq<Point>)
    ensures |h| == |history|
    ensures |history| > 0 && history[|history| - 1].time == time ==>
              h[|h| - 1] == PointOf(time, d) && h[..|h| - 1] == history[..|history| - 1]
    ensures !(|history| > 0 && history[|history| - 1].time == time) ==> h == history
  {
    if |history| > 0 && history[|history| - 1].time == time then history[|history| - 1 := PointOf(time, d)]
    else history
  }

  /** A sentiment change in the same minute as a tick amends the tick's point. */
  lemma RefreshAmendsTick(history: seq<Point>, time: string, d1: Distribution, d2: Distribution)
    ensures Refresh(Tick(history, time, d1), time, d2) == Tick(history, time, d2)
  {
  }

  /** The window never exceeds five points, however the two updaters interleave. */
  lemma WindowBounded(history: seq<Point>, time: string, d: Distribution)
    requires |history| <= Window
    ensures |Tick(history, time, d)| <= Window && |Refresh(history, time, d)| <= Window
  {
  }

  // ---------------------------------------------------------------- chat reducers

  /** The `receive-message` reducer: append. */
  function Receive(msgs: seq<Message>, msg: Message): (r: seq<Message>)
    ensures |r| == |msgs| + 1 && r[..|msgs|] == msgs && r[|msgs|] == msg
  {
    msgs + [msg]
  }

  /** The `message-reaction-updated` reducer: every message with the id gets the new reactions;
      every other message, and the length, are unchanged. */
  function ApplyReactions(msgs: seq<Message>, id: string, reactions: map<string, seq<string>>): (r: seq<Message>)
    ensures |r| == |msgs|
    ensures forall i :: 0 <= i < |msgs| && msgs[i].id == id ==> r[i] == msgs[i].(reactions := reactions)
    ensures forall i :: 0 <= i < |msgs| && msgs[i].id != id ==> r[i] == msgs[i]
  {
    seq(|msgs|, i requires 0 <= i < |msgs| => if msgs[i].id == id then msgs[i].(reactions := reactions) else msgs[i])
  }

  predicate UniqueIds(msgs: seq<Message>) {
    forall i, j :: 0 <= i < j < |msgs| ==> msgs[i].id != msgs[j].id
  }

  /** A client whose list equals the room's messages still equals them after applying what
      `send-message` and `react-to-message` broadcast, as long as message ids are unique. */
  lemma ClientMirrorsServer(m: Meeting, messageId: string, kind: string, name: string)
    requires UniqueIds(m.messages)
    ensures var s := Chat.ReactToMessage(m, messageId, kind, name);
            s.out != [] ==> ApplyReactions(m.messages, s.out[0].event.messageId, s.out[0].event.reactions) == s.room.messages
  {
  }

  lemma ClientMirrorsSend(m: Meeting, uuid: string, userId: string, userName: string, userRole: string, text: string)
    ensures var s := Chat.SendMessage(m, uuid, userId, userName, userRole, text);
            Receive(m.messages, s.out[0].event.posted) == s.room.messages
  {
  }

  // ---------------------------------------------------------------- waiting room

  datatype PendingRequest = PendingRequest(socketId: string, displayName: string)

  /** The `participant-request` reducer: append. */
  function AddRequest(pending: seq<PendingRequest>, req: PendingRequest): seq<PendingRequest> {
    pending + [req]
  }

  /** Approving or denying `socketId`: drop every entry with that socket, keep the rest in order. */
  function Resolve(pending: seq<PendingRequest>, socketId: string): (r: seq<PendingRequest>)
    ensures forall i :: 0 <= i < |r| ==> r[i].socketId != socketId && r[i] in pending
    ensures forall p :: p in pending && p.socketId != socketId ==> p in r
    ensures |r| <= |pending|
  {
    if pending == [] then []
    else if pending[|pending| - 1].socketId == socketId then Resolve(pending[..|pending| - 1], socketId)
    else Resolve(pending[..|pending| - 1], socketId) + [pending[|pending| - 1]]
  }

  /** Resolving distributes over concatenation, so the kept entries keep their order. */
  lemma {:induction false} ResolveAppend(a: seq<PendingRequest>, b: seq<PendingRequest>, socketId: string)
    ensures Resolve(a + b, socketId) == Resolve(a, socketId) + Resolve(b, socketId)
    decreases |b|
  {
    if b == [] {
      assert a + b == a;
    } else {
      var n := |b| - 1;
      assert (a + b)[..|a + b| - 1] == a + b[..n];
      ResolveAppend(a, b[..n], socketId);
    }
  }

  /** Deciding on a request the instructor just received restores the list they had. */
  lemma ResolveUndoesRequest(pending: seq<PendingRequest>, req: PendingRequest)
    requires forall i :: 0 <= i < |pending| ==> pending[i].socketId != req.socketId
    ensures Resolve(AddRequest(pending, req), req.socketId) == pending
  {
    assert AddRequest(pending, req)[..|pending|] == pending;
    ResolveKeepsOthers(pending, req.socketId);
  }

  lemma {:induction false} ResolveKeepsOthers(pending: seq<PendingRequest>, socketId: string)
    requires forall i :: 0 <= i < |pending| ==> pending[i].socketId != socketId
    ensures Resolve(pending, socketId) == pending
    decreases |pending|
  {
    if pending != [] {
      ResolveKeepsOthers(pending[..|pending| - 1], socketId);
      assert pending == pending[..|pending| - 1] + [pending[|pending| - 1]];
    }
  }

  // ---------------------------------------------------------------- rename

  /** The outcome of `handleNameChange`: the shown name, the editing flag, and the name sent
      with `update-name`, if one is sent. */
  datatype NameEdit = NameEdit(name: string, editing: bool, sent: Option<string>)

  /** `handleNameChange`: a draft that trims to something and differs from the current name
      becomes the name, and is sent to the server when the client has joined and holds a
      socket. Editing ends either way. */
  function HandleNameChange(draft: string, name: string, joined: bool, connected: bool): (r: NameEdit)
    ensures !r.editing
    ensures r.name == (if !IsBlank(draft) && draft != name then draft else name)
    ensures r.sent.Some? <==> !IsBlank(draft) && draft != name && joined && connected
    ensures r.sent.Some? ==> r.sent.value == draft
  {
    if !IsBlank(draft) && draft != name then
      NameEdit(draft, false, if joined && connected then Some(draft) else None)
    else NameEdit(name, false, None)
  }

  /** Submitting the same draft again sends nothing and changes nothing. */
  lemma RenameTwiceIsQuiet(draft: string, name: string, joined: bool, connected: bool)
    ensures var first := HandleNameChange(draft, name, joined, connected);
            HandleNameChange(draft, first.name, joined, connected) == NameEdit(first.name, false, None)
  {
  }

  /** What the client shows after a sent rename is what the server stores for its socket. */
  lemma RenameReachesServer(m: Meeting, socket: string, draft: string, name: string)
    requires ParticipantIndex(m.participants, socket).Some?
    ensures var edit := HandleNameChange(draft, name, true, true);
            edit.sent.Some? ==>
              var i := ParticipantIndex(m.participants, socket).value;
              Lifecycle.UpdateName(m, socket, edit.sent.value).room.participants[i].displayName == edit.name
  {
  }
}

=== FILE: lifecycle.dfy ===
/** Participant lifecycle handlers of server/server.js: the waiting room, `join-room`,
    `update-name`, `submit-sentiment`, `remove-user`, `mute-user` and the per-room part of
    `disconnect`. Each is a pure transition of one room record plus the emissions it makes. */
module Lifecycle {
  import opened Wrappers
  import opened Room
  import opened SentimentTally

  /** `request-to-join`: a room with an admin forwards the request to the admin's socket
      only; a missing room or a room without an admin approves the requester at once. */
  function RequestToJoin(room: Option<Meeting>, socket: string, displayName: string): (out: seq<Emit>)
    ensures |out| == 1
    ensures out[0].event == ParticipantApproved <==> room.None? || room.value.admin.None?
    ensures out[0].event == ParticipantApproved ==> out[0].to == ToSocket(socket)
    ensures out[0].event != ParticipantApproved ==>
              out[0] == Emit(ToSocket(room.value.admin.value), ParticipantRequest(socket, displayName))
  {
    if room.Some? && room.value.admin.Some? then
      [Emit(ToSocket(room.value.admin.value), ParticipantRequest(socket, displayName))]
    else
      [Emit(ToSocket(socket), ParticipantApproved)]
  }

  /** `approve-participant` / `deny-participant`: one notification to the addressed socket,
      whoever sends it. */
  function Decide(target: string, approve: bool): (out: seq<Emit>)
    ensures |out| == 1 && out[0].to == ToSocket(target)
    ensures out[0].event == ParticipantApproved <==> approve
    ensures out[0].event == ParticipantDenied <==> !approve
  {
    [Emit(ToSocket(target), if approve then ParticipantApproved else ParticipantDenied)]
  }

  /** `join-room`: the room is created when missing; one participant without a sentiment is
      appended; an admin join overwrites `meeting.admin`; the room state is broadcast. */
  function JoinRoom(room: Option<Meeting>, roomId: string, socket: string, displayName: string, isAdmin: bool): (r: RoomStep)
    requires room.Some? ==> room.value.id == roomId
    ensures var base := room.GetOr(NewMeeting(roomId));
      && r.room.participants == base.participants + [Participant(socket, displayName, isAdmin, None)]
      && r.room.admin == (if isAdmin then Some(socket) else base.admin)
      && r.room == base.(participants := r.room.participants, admin := r.room.admin)
      && (Consistent(base) ==> Consistent(r.room))
    ensures r.room.id == roomId
    ensures r.out == [Broadcast(r.room)]
  {
    var base := room.GetOr(NewMeeting(roomId));
    var p := Participant(socket, displayName, isAdmin, None);
    var m := base.(participants := base.participants + [p],
                   admin := if isAdmin then Some(socket) else base.admin);
    TallyAppendSilent(base.participants, p);
    RoomStep(m, [Broadcast(m)])
  }

  /** `update-name`: renames the first record of the requesting socket and broadcasts; a
      socket without a record changes nothing and emits nothing. */
  function UpdateName(m: Meeting, socket: string, newName: string): (r: RoomStep)
    ensures ParticipantIndex(m.participants, socket).None? ==> r == RoomStep(m, [])
    ensures ParticipantIndex(m.participants, socket).Some? ==>
      var i := ParticipantIndex(m.participants, socket).value;
      && |r.room.participants| == |m.participants|
      && r.room.participants[i] == m.participants[i].(displayName := newName)
      && (forall j :: 0 <= j < |m.participants| && j != i ==> r.room.participants[j] == m.participants[j])
      && r.room == m.(participants := r.room.participants)
      && r.out == [Broadcast(r.room)]
    ensures Consistent(m) ==> Consistent(r.room)
  {
    match ParticipantIndex(m.participants, socket)
    case None => RoomStep(m, [])
    case Some(i) =>
      var ps := m.participants[i := m.participants[i].(displayName := newName)];
      forall k ensures Count(ps, k) == Count(m.participants, k) {
        CountUpdateAt(m.participants, i, m.participants[i].(displayName := newName), k);
      }
      var m' := m.(participants := ps);
      RoomStep(m', [Broadcast(m')])
  }

  /** `submit-sentiment`: overwrites the requester's sentiment, recounts the distribution from
      scratch, and emits `sentiment-updated` then `room-state`. Whatever the stored counters
      were before, they agree with the participants afterwards. */
  function SubmitSentiment(m: Meeting, socket: string, value: Option<Sentiment>): (r: RoomStep)
    ensures ParticipantIndex(m.participants, socket).None? ==> r == RoomStep(m, [])
    ensures ParticipantIndex(m.participants, socket).Some? ==>
      var i := ParticipantIndex(m.participants, socket).value;
      && |r.room.participants| == |m.participants|
      && r.room.participants[i] == m.participants[i].(sentiment := value)
      && (forall j :: 0 <= j < |m.participants| && j != i ==> r.room.participants[j] == m.participants[j])
      && Consistent(r.room)
      && r.room == m.(participants := r.room.participants, sentiment := r.room.sentiment)
      && r.out == [Emit(ToRoom(m.id), SentimentUpdated(socket, value, r.room.sentiment)), Broadcast(r.room)]
  {
    match ParticipantIndex(m.participants, socket)
    case None => RoomStep(m, [])
    case Some(i) =>
      var ps := m.participants[i := m.participants[i].(sentiment := value)];
      var m' := m.(participants := ps, sentiment := Tally(ps));
      RoomStep(m', [Emit(ToRoom(m.id), SentimentUpdated(socket, value, m'.sentiment)), Broadcast(m')])
  }

  /** The common tail of `remove-user` and `disconnect`: splice out the first record of
      `target`, decrement its sentiment kind, and report whether anything was removed. */
  function Evict(m: Meeting, target: string): (r: Option<Meeting>)
    ensures r.None? <==> ParticipantIndex(m.participants, target).None?
    ensures r.Some? ==>
      var i := ParticipantIndex(m.participants, target).value;
      && r.value.participants == RemoveAt(m.participants, i)
      && r.value.sentiment == Decrement(m.sentiment, m.participants[i].sentiment)
      && r.value == m.(participants := r.value.participants, sentiment := r.value.sentiment)
      && (Consistent(m) ==> Consistent(r.value))
  {
    match ParticipantIndex(m.participants, target)
    case None => None
    case Some(i) =>
      var removed := m.participants[i];
      var m' := m.(participants := RemoveAt(m.participants, i),
                   sentiment := Decrement(m.sentiment, removed.sentiment));
      if Consistent(m) then
        DecrementMatchesRecount(m.participants, m.sentiment, i);
        Some(m')
      else Some(m')
  }

  /** `remove-user`: only a requester whose own first record carries the admin flag may
      remove; anyone else gets an `error` to their socket only. An unknown target is a
      silent no-op. `meeting.admin` is neither consulted nor cleared. */
  function RemoveUser(m: Meeting, socket: string, target: string): (r: RoomStep)
    ensures !RequesterIsAdmin(m.participants, socket) ==>
              r == RoomStep(m, [Emit(ToSocket(socket), Error("Only instructors can remove users"))])
    ensures RequesterIsAdmin(m.participants, socket) && ParticipantIndex(m.participants, target).None? ==>
              r == RoomStep(m, [])
    ensures RequesterIsAdmin(m.participants, socket) && ParticipantIndex(m.participants, target).Some? ==>
              && r.room.participants == RemoveFirst(m.participants, target)
              && |r.room.participants| == |m.participants| - 1
              && r.room.admin == m.admin
              && r.room == m.(participants := r.room.participants,
                              sentiment := Decrement(m.sentiment, m.participants[ParticipantIndex(m.participants, target).value].sentiment))
              && r.out == [Emit(ToSocket(target), UserRemoved), Broadcast(r.room)]
    ensures Consistent(m) ==> Consistent(r.room)
  {
    if !RequesterIsAdmin(m.participants, socket) then
      RoomStep(m, [Emit(ToSocket(socket), Error("Only instructors can remove users"))])
    else match Evict(m, target)
      case None => RoomStep(m, [])
      case Some(m') => RoomStep(m', [Emit(ToSocket(target), UserRemoved), Broadcast(m')])
  }

  /** `mute-user`: an admin requester makes the target mute itself; anyone else gets an
      `error`. The room never changes. */
  function MuteUser(m: Meeting, socket: string, target: string): (out: seq<Emit>)
    ensures |out| == 1
    ensures RequesterIsAdmin(m.participants, socket) <==> out[0] == Emit(ToSocket(target), ForceMute)
    ensures !RequesterIsAdmin(m.participants, socket) ==>
              out[0] == Emit(ToSocket(socket), Error("Only instructors can mute users"))
  {
    if !RequesterIsAdmin(m.participants, socket) then
      [Emit(ToSocket(socket), Error("Only instructors can mute users"))]
    else
      [Emit(ToSocket(target), ForceMute)]
  }

  /** The body of the `disconnect` sweep for one room: drop the socket's first record and
      broadcast, or do nothing when the socket has no record here. */
  function DisconnectFrom(m: Meeting, socket: string): (r: RoomStep)
    ensures ParticipantIndex(m.participants, socket).None? ==> r == RoomStep(m, [])
    ensures ParticipantIndex(m.participants, socket).Some? ==>
              && r.room.participants == RemoveFirst(m.participants, socket)
              && r.room == m.(participants := r.room.participants, sentiment := r.room.sentiment)
              && r.out == [Broadcast(r.room)]
    ensures Consistent(m) ==> Consistent(r.room)
  {
    match Evict(m, socket)
    case None => RoomStep(m, [])
    case Some(m') => RoomStep(m', [Broadcast(m')])
  }

  /** A socket holds at most one record in `ps`. */
  predicate AtMostOnce(ps: seq<Participant>, id: string) {
    forall i, j :: 0 <= i < j < |ps| && ps[i].id == id ==> ps[j].id != id
  }

  /** A socket that joined once is gone after one disconnect: a second sweep of the same
      room changes nothing and emits nothing. */
  lemma DisconnectIdempotent(m: Meeting, socket: string)
    requires AtMostOnce(m.participants, socket)
    ensures var once := DisconnectFrom(m, socket).room;
            DisconnectFrom(once, socket) == RoomStep(once, [])
  {
    var ps := m.participants;
    match ParticipantIndex(ps, socket)
    case None =>
    case Some(i) =>
      var rest := RemoveAt(ps, i);
      forall j | 0 <= j < |rest| ensures rest[j].id != socket {
        if j < i {
        } else {
          assert rest[j] == ps[j + 1];
        }
      }
  }

  /** The admin check reads the requester's own flag, not `meeting.admin`: after a second
      admin joins and takes over `meeting.admin`, the first admin can still remove users. */
  lemma DisplacedAdminKeepsPowers(m: Meeting, first: string, second: string, target: string)
    requires first != second && ParticipantIndex(m.participants, first).None?
    requires ParticipantIndex(m.participants, target).Some?
    ensures var m1 := JoinRoom(Some(m), m.id, first, "first", true).room;
            var m2 := JoinRoom(Some(m1), m.id, second, "second", true).room;
            && m2.admin == Some(second)
            && RequesterIsAdmin(m2.participants, first)
            && |RemoveUser(m2, first, target).room.participants| == |m2.participants| - 1
  {
    var m1 := JoinRoom(Some(m), m.id, first, "first", true).room;
    var m2 := JoinRoom(Some(m1), m.id, second, "second", true).room;
    var n := |m.participants|;
    assert m2.participants[n].id == first;
    var t := ParticipantIndex(m.participants, target).value;
    assert m2.participants[t].id == target;
    assert ParticipantIndex(m2.participants, first) == Some(n);
  }
}

=== FILE: mcqgen.dfy ===
/** `generateMCQs` and `generateMockMCQs` of server/server.js: the schema filter and
    truncation applied to the generative service's reply, and the deterministic,
    keyword-dispatched fallback question sets. The service itself is an oracle: its reply
    arrives already parsed (or as the failure it produced). */
module McqGen {
  import opened Wrappers
  import opened Text
  import opened Room

  /** One element of the parsed reply. A field that is missing, or of a JSON type other than
      the one named, is `None`. */
  datatype RawMcq = RawMcq(question: Option<string>, options: Option<seq<string>>, answer: Option<string>, explanation: Option<string>)

  /** What the generative service produced: no API key configured, a failed call, text that
      is not JSON, JSON that is not an array, or the parsed array. */
  datatype McqReply = NoApiKey | CallFailed | Unparsable | NotAnArray | Items(items: seq<RawMcq>)

  /** The filter of `generateMCQs`: a truthy question, an options array of at least two
      entries, and a truthy answer. The answer is not required to be one of the options. */
  predicate PassesFilter(x: RawMcq) {
    Truthy(x.question) && x.options.Some? && |x.options.value| >= 2 && Truthy(x.answer)
  }

  /** The shape every question the server hands out has. */
  predicate WellFormed(q: Mcq) {
    q.question != "" && |q.options| >= 2 && q.answer != ""
  }

  function ToMcq(x: RawMcq): (q: Mcq)
    requires PassesFilter(x)
    ensures WellFormed(q)
  {
    Mcq(x.question.value, x.options.value, x.answer.value, x.explanation)
  }

  /** `mcqs.filter(...)`: the entries passing the filter, in reply order. */
  function ValidMcqs(xs: seq<RawMcq>): (r: seq<Mcq>)
    ensures |r| <= |xs|
    ensures forall i :: 0 <= i < |r| ==> WellFormed(r[i])
    ensures |r| == 0 <==> forall i :: 0 <= i < |xs| ==> !PassesFilter(xs[i])
    ensures forall k :: 0 <= k < |r| ==> exists j :: 0 <= j < |xs| && PassesFilter(xs[j]) && r[k] == ToMcq(xs[j])
    ensures forall j :: 0 <= j < |xs| && PassesFilter(xs[j]) ==> ToMcq(xs[j]) in r
    decreases |xs|
  {
    if xs == [] then []
    else
      var rest := ValidMcqs(xs[1..]);
      assert forall j :: 1 <= j < |xs| ==> xs[j] == xs[1..][j - 1];
      if PassesFilter(xs[0]) then
        var r := [ToMcq(xs[0])] + rest;
        assert forall k :: 1 <= k < |r| ==> r[k] == rest[k - 1];
        r
      else rest
  }

  /** Filtering distributes over concatenation: kept entries stay in reply order. */
  lemma {:induction false} ValidMcqsAppend(a: seq<RawMcq>, b: seq<RawMcq>)
    ensures ValidMcqs(a + b) == ValidMcqs(a) + ValidMcqs(b)
  {
    if a == [] {
      assert a + b == b;
    } else {
      assert (a + b)[0] == a[0];
      assert (a + b)[1..] == a[1..] + b;
      ValidMcqsAppend(a[1..], b);
    }
  }

  /** The filter does not check that the answer is one of the options: such an entry is kept. */
  lemma AnswerOutsideOptionsKept()
    ensures var x := RawMcq(Some("Q?"), Some(["A", "B"]), Some("C"), None);
            ValidMcqs([x]) == [Mcq("Q?", ["A", "B"], "C", None)] && "C" !in ["A", "B"]
  {
  }

  /** What V8 throws when `generateMockMCQs` receives `undefined` and calls `toLowerCase` on it. */
  const UndefinedTopicError := "Cannot read properties of undefined (reading 'toLowerCase')"

  /** The fallback path: `generateMockMCQs(topic)`, which throws for an undefined topic. */
  function Fallback(topic: Option<string>): (r: Result<seq<Mcq>>)
    ensures r.Failure? <==> topic.None?
    ensures r.Success? ==> r.value == MockMcqs(topic.value)
  {
    match topic
    case Some(t) => Success(MockMcqs(t))
    case None => Failure(UndefinedTopicError)
  }

  /** `generateMCQs(topic, difficulty, count)`: the filtered reply cut to `count` entries when
      the reply holds at least one valid entry; the mock set for every other reply. Every
      question it returns is well formed. */
  function GenerateMcqs(topic: Option<string>, count: nat, reply: McqReply): (r: Result<seq<Mcq>>)
    ensures reply.Items? && |ValidMcqs(reply.items)| > 0 ==>
              && r.Success?
              && |r.value| == (if count < |ValidMcqs(reply.items)| then count else |ValidMcqs(reply.items)|)
              && r.value == ValidMcqs(reply.items)[..|r.value|]
    ensures !(reply.Items? && |ValidMcqs(reply.items)| > 0) ==> r == Fallback(topic)
    ensures !(reply.Items? && |ValidMcqs(reply.items)| > 0) && r.Success? ==> |r.value| == 5
    ensures r.Success? ==> forall i :: 0 <= i < |r.value| ==> WellFormed(r.value[i])
  {
    var valid := if reply.Items? then ValidMcqs(reply.items) else [];
    if |valid| > 0 then
      Success(if count < |valid| then valid[..count] else valid)
    else
      MockShape(topic.GetOr(""));
      Fallback(topic)
  }

  /** `generateMockMCQs(prompt)`: the React set when the lower-cased prompt mentions
      "react" (checked first), the JavaScript set when it mentions "javascript" or "js",
      and a generic set built around the capitalised prompt otherwise. */
  function MockMcqs(prompt: string): (r: seq<Mcq>)
    ensures var topic := ToLower(prompt);
      && (Contains(topic, "react") ==> r == ReactSet)
      && (!Contains(topic, "react") && (Contains(topic, "javascript") || Contains(topic, "js")) ==> r == JavaScriptSet)
      && (!Contains(topic, "react") && !Contains(topic, "javascript") && !Contains(topic, "js") ==> r == GenericSet(Capitalize(prompt)))
  {
    var topic := ToLower(prompt);
    if Contains(topic, "react") then ReactSet
    else if Contains(topic, "javascript") || Contains(topic, "js") then JavaScriptSet
    else GenericSet(Capitalize(prompt))
  }

  /** A question of four options, the answer being one of them. */
  predicate ShapedQuestion(q: Mcq) {
    WellFormed(q) && |q.options| == 4 && q.answer in q.options
  }

  /** Five questions of four options each, the answer being one of them. */
  predicate Shaped(qs: seq<Mcq>) {
    |qs| == 5 && forall i :: 0 <= i < 5 ==> ShapedQuestion(qs[i])
  }

  /** Five shaped questions form a shaped set. */
  lemma ShapedOfFive(qs: seq<Mcq>)
    requires |qs| == 5
    requires ShapedQuestion(qs[0]) && ShapedQuestion(qs[1]) && ShapedQuestion(qs[2])
    requires ShapedQuestion(qs[3]) && ShapedQuestion(qs[4])
    ensures Shaped(qs)
  {
    forall i | 0 <= i < 5 ensures ShapedQuestion(qs[i]) {
      if i == 0 {} else if i == 1 {} else if i == 2 {} else if i == 3 {} else {}
    }
  }

  lemma ReactSetShaped()
    ensures Shaped(ReactSet)
  {
    ShapedOfFive(ReactSet);
  }

  lemma JavaScriptSetShaped()
    ensures Shaped(JavaScriptSet)
  {
    ShapedOfFive(JavaScriptSet);
  }

  lemma GenericSetShaped(title: string)
    ensures Shaped(GenericSet(title))
  {
    hide Generic1, Generic2, Generic3, Generic4, Generic5;
    var g := GenericSet(title);
    assert g == [Generic1(title), Generic2(title), Generic3(title), Generic4(title), Generic5(title)];
    ShapedOfFive(g);
  }

  /** Every mock set has five questions of four options, the answer being one of them. */
  lemma MockShape(prompt: string)
    ensures Shaped(MockMcqs(prompt))
  {
    var r := MockMcqs(prompt);
    var topic := ToLower(prompt);
    if Contains(topic, "react") {
      ReactSetShaped();
    } else if Contains(topic, "javascript") || Contains(topic, "js") {
      JavaScriptSetShaped();
    } else {
      GenericSetShaped(Capitalize(prompt));
    }
  }

  /** A prompt naming both React and JavaScript gets the React set. */
  lemma ReactCheckedFirst(prompt: string)
    requires Contains(ToLower(prompt), "react") && Contains(ToLower(prompt), "javascript")
    ensures MockMcqs(prompt) == ReactSet && MockMcqs(prompt) != JavaScriptSet
  {
    assert ReactSet[0] != JavaScriptSet[0];
  }

  const ReactSet: seq<Mcq> := [
    Mcq("What is the primary purpose of React's useEffect hook?",
        ["To handle side effects in functional components", "To manage global state", "To create new components", "To optimize rendering speed"],
        "To handle side effects in functional components",
        Some("useEffect is designed to handle side effects like data fetching, subscriptions, and DOM updates.")),
    Mcq("Which of the following is NOT a rule of Hooks?",
        ["Hooks can be called inside loops", "Hooks must be called at the top level", "Hooks must be called from React functions", "Hooks cannot be conditional"],
        "Hooks can be called inside loops",
        Some("Hooks must always be called at the top level of your React function, not inside loops, conditions, or nested functions.")),
    Mcq("What is the virtual DOM in React?",
        ["A lightweight copy of the real DOM", "A direct reference to the browser DOM", "A database for React components", "A third-party library"],
        "A lightweight copy of the real DOM",
        Some("The virtual DOM is a lightweight JavaScript representation of the DOM that React uses to optimize updates.")),
    Mcq("How do you pass data from a parent to a child component?",
        ["Using props", "Using state", "Using Redux", "Using local storage"],
        "Using props",
        Some("Props (properties) are the standard way to pass data from parent to child components in React.")),
    Mcq("What is the purpose of the useState hook?",
        ["To add state to functional components", "To fetch data from an API", "To route between pages", "To style components"],
        "To add state to functional components",
        Some("useState allows functional components to maintain and update their own internal state."))
  ]

  const JavaScriptSet: seq<Mcq> := [
    Mcq("Which keyword is used to declare a constant variable in JavaScript?",
        ["const", "let", "var", "fixed"],
        "const",
        Some("The 'const' keyword is used to declare variables that cannot be reassigned.")),
    Mcq("What is the output of '2' + 2 in JavaScript?",
        ["'22'", "4", "NaN", "Error"],
        "'22'",
        Some("JavaScript performs string concatenation when the + operator is used with a string.")),
    Mcq("What is a closure in JavaScript?",
        ["A function bundled with its lexical environment", "A way to close a browser window", "A method to end a loop", "A database connection"],
        "A function bundled with its lexical environment",
        Some("A closure gives you access to an outer function's scope from an inner function.")),
    Mcq("Which method is used to add an element to the end of an array?",
        ["push()", "pop()", "shift()", "unshift()"],
        "push()",
        Some("The push() method adds one or more elements to the end of an array.")),
    Mcq("What does 'DOM' stand for?",
        ["Document Object Model", "Data Object Mode", "Document Oriented Module", "Digital Ordinance Model"],
        "Document Object Model",
        Some("The DOM is a programming interface for web documents."))
  ]

  /** The generic set, with `title` interpolated into questions and explanations. */
  function GenericSet(title: string): (r: seq<Mcq>)
    ensures |r| == 5
  {
    [Generic1(title), Generic2(title), Generic3(title), Generic4(title), Generic5(title)]
  }

  function Generic1(title: string): (q: Mcq)
    ensures ShapedQuestion(q)
  {
    Mcq("What is the primary function of " + title + "?",
        ["To facilitate core operations in its domain", "To reduce system performance", "To increase code complexity", "To replace all other technologies"],
        "To facilitate core operations in its domain",
        Some(title + " is designed to solve specific problems efficiently within its context."))
  }

  function Generic2(title: string): (q: Mcq)
    ensures ShapedQuestion(q)
  {
    Mcq("Which of the following is a key benefit of using " + title + "?",
        ["Improved efficiency and scalability", "Higher cost of implementation", "Slower processing times", "Limited compatibility"],
        "Improved efficiency and scalability",
        Some("One of the main reasons to adopt " + title + " is the improvement in workflow and scalability."))
  }

  function Generic3(title: string): (q: Mcq)
    ensures ShapedQuestion(q)
  {
    Mcq("In a typical workflow, when would you implement " + title + "?",
        ["During the initial setup or optimization phase", "Only after the project is deleted", "Never, it is obsolete", "Randomly without planning"],
        "During the initial setup or optimization phase",
        Some("Implementing " + title + " at the right stage ensures better structure and performance."))
  }

  function Generic4(title: string): (q: Mcq)
    ensures ShapedQuestion(q)
  {
    Mcq("What is a common challenge associated with " + title + "?",
        ["Learning curve for beginners", "It is too easy to use", "It requires no configuration", "It works without electricity"],
        "Learning curve for beginners",
        Some("Like many advanced concepts, " + title + " can be challenging to master initially."))
  }

  function Generic5(title: string): (q: Mcq)
    ensures ShapedQuestion(q)
  {
    Mcq("Which industry standard is often associated with " + title + "?",
        ["Modern best practices", "Legacy systems from the 1990s", "Manual paper processing", "Single-user environments"],
        "Modern best practices",
        Some(title + " is often aligned with current industry standards and best practices."))
  }
}

=== FILE: quiz.dfy ===
/** Quiz coordination handlers of server/server.js: `generate-mcq`, `submit-mcq-response`,
    `get-mcq-analytics` and `generate-from-summary`, with the response store and the
    per-question analytics they rely on. */
module Quiz {
  import opened Wrappers
  import opened Text
  import opened Room
  import opened McqGen

  // ---------------------------------------------------------------- response store

  /** `meeting.mcqs.find(m => m.id === id)`, as an index. */
  function SessionIndex(ss: seq<McqSession>, id: string): (r: Option<nat>)
    ensures r.Some? ==> r.value < |ss| && ss[r.value].id == id
    ensures r.Some? ==> forall j :: 0 <= j < r.value ==> ss[j].id != id
    ensures r.None? ==> forall j :: 0 <= j < |ss| ==> ss[j].id != id
  {
    if ss == [] then None
    else if ss[0].id == id then Some(0)
    else match SessionIndex(ss[1..], id)
      case Some(i) => Some(i + 1)
      case None => None
  }

  /** The entry of `socket` in a session's response map, as an index. */
  function ResponderIndex(rs: seq<Responder>, socket: string): (r: Option<nat>)
    ensures r.Some? ==> r.value < |rs| && rs[r.value].socketId == socket
    ensures r.Some? ==> forall j :: 0 <= j < r.value ==> rs[j].socketId != socket
    ensures r.None? ==> forall j :: 0 <= j < |rs| ==> rs[j].socketId != socket
  {
    if rs == [] then None
    else if rs[0].socketId == socket then Some(0)
    else match ResponderIndex(rs[1..], socket)
      case Some(i) => Some(i + 1)
      case None => None
  }

  /** A JavaScript `Map` holds each key once. */
  predicate DistinctResponders(rs: seq<Responder>) {
    forall i, j :: 0 <= i < j < |rs| ==> rs[i].socketId != rs[j].socketId
  }

  /** The sockets that have answered at least once. */
  function Sockets(rs: seq<Responder>): set<string> {
    if rs == [] then {} else Sockets(rs[..|rs| - 1]) + {rs[|rs| - 1].socketId}
  }

  /** The answer stored for (`socket`, `idx`), if any. */
  function StoredAnswer(rs: seq<Responder>, socket: string, idx: int): Option<string> {
    match ResponderIndex(rs, socket)
    case Some(i) => if idx in rs[i].answers then Some(rs[i].answers[idx]) else None
    case None => None
  }

  /** `responses.get(socket)[idx] = answer`, creating the socket's entry at the end of the
      map when it has none. */
  function Record(rs: seq<Responder>, socket: string, idx: int, answer: string): (r: seq<Responder>)
    ensures ResponderIndex(rs, socket).None? ==> r == rs + [Responder(socket, map[idx := answer])]
    ensures ResponderIndex(rs, socket).Some? ==>
      var i := ResponderIndex(rs, socket).value;
      && |r| == |rs|
      && r[i] == Responder(socket, rs[i].answers[idx := answer])
      && forall j :: 0 <= j < |rs| && j != i ==> r[j] == rs[j]
  {
    match ResponderIndex(rs, socket)
    case None => rs + [Responder(socket, map[idx := answer])]
    case Some(i) => rs[i := Responder(socket, rs[i].answers[idx := answer])]
  }

  /** Recording grows the responding sockets by exactly this socket and keeps keys distinct. */
  lemma RecordSockets(rs: seq<Responder>, socket: string, idx: int, answer: string)
    ensures Sockets(Record(rs, socket, idx, answer)) == Sockets(rs) + {socket}
    ensures DistinctResponders(rs) ==> DistinctResponders(Record(rs, socket, idx, answer))
  {
    var r := Record(rs, socket, idx, answer);
    match ResponderIndex(rs, socket)
    case None =>
      assert r[..|rs|] == rs;
    case Some(i) =>
      SocketsUpdate(rs, i, r[i]);
      SocketsHas(rs, i);
  }

  lemma {:induction false} SocketsUpdate(rs: seq<Responder>, i: nat, x: Responder)
    requires i < |rs| && x.socketId == rs[i].socketId
    ensures Sockets(rs[i := x]) == Sockets(rs)
    decreases |rs|
  {
    var n := |rs| - 1;
    assert rs[i := x][..n] == if i < n then rs[..n][i := x] else rs[..n];
    if i < n {
      SocketsUpdate(rs[..n], i, x);
    }
  }

  lemma {:induction false} SocketsHas(rs: seq<Responder>, i: nat)
    requires i < |rs|
    ensures rs[i].socketId in Sockets(rs)
    decreases |rs|
  {
    if i < |rs| - 1 {
      SocketsHas(rs[..|rs| - 1], i);
    }
  }

  lemma {:induction false} SocketsMissing(rs: seq<Responder>, s: string)
    requires forall j :: 0 <= j < |rs| ==> rs[j].socketId != s
    ensures s !in Sockets(rs)
    decreases |rs|
  {
    if rs != [] {
      SocketsMissing(rs[..|rs| - 1], s);
    }
  }

  /** Distinct keys make the number of entries the number of responding sockets. */
  lemma {:induction false} SocketsCount(rs: seq<Responder>)
    requires DistinctResponders(rs)
    ensures |Sockets(rs)| == |rs|
    decreases |rs|
  {
    if rs != [] {
      var n := |rs| - 1;
      SocketsCount(rs[..n]);
      SocketsMissing(rs[..n], rs[n].socketId);
    }
  }

  /** Last write wins: answering the same question twice keeps only the second answer. */
  lemma LastWriteWins(rs: seq<Responder>, socket: string, idx: int, first: string, second: string)
    ensures Record(Record(rs, socket, idx, first), socket, idx, second) == Record(rs, socket, idx, second)
    ensures StoredAnswer(Record(Record(rs, socket, idx, first), socket, idx, second), socket, idx) == Some(second)
  {
    match ResponderIndex(rs, socket)
    case None => LastWriteWinsNew(rs, socket, idx, first, second);
    case Some(i) => LastWriteWinsExisting(rs, socket, idx, first, second, i);
  }

  lemma LastWriteWinsNew(rs: seq<Responder>, socket: string, idx: int, first: string, second: string)
    requires ResponderIndex(rs, socket).None?
    ensures Record(Record(rs, socket, idx, first), socket, idx, second) == Record(rs, socket, idx, second)
    ensures StoredAnswer(Record(rs, socket, idx, second), socket, idx) == Some(second)
  {
    RecordTwiceNew(rs, socket, idx, first, second);
    ResponderIndexLast(rs, Responder(socket, map[idx := second]));
  }

  /** A socket's first answer creates its entry; the second overwrites that entry. */
  lemma RecordTwiceNew(rs: seq<Responder>, socket: string, idx: int, first: string, second: string)
    requires ResponderIndex(rs, socket).None?
    ensures Record(Record(rs, socket, idx, first), socket, idx, second) == rs + [Responder(socket, map[idx := second])]
  {
    var x1 := Responder(socket, map[idx := first]);
    var once := Record(rs, socket, idx, first);
    assert once == rs + [x1];
    ResponderIndexLast(rs, x1);
    var twice := Record(once, socket, idx, second);
    assert twice[|rs|] == Responder(socket, map[idx := second]) by {
      assert map[idx := first][idx := second] == map[idx := second];
    }
    assert forall j :: 0 <= j < |rs| ==> twice[j] == rs[j];
  }

  /** A socket absent from the map is found at the entry appended for it. */
  lemma ResponderIndexLast(rs: seq<Responder>, x: Responder)
    requires ResponderIndex(rs, x.socketId).None?
    ensures ResponderIndex(rs + [x], x.socketId) == Some(|rs|)
  {
    var r := rs + [x];
    assert r[|rs|].socketId == x.socketId;
    assert forall j :: 0 <= j < |rs| ==> r[j] == rs[j];
  }

  lemma LastWriteWinsExisting(rs: seq<Responder>, socket: string, idx: int, first: string, second: string, i: nat)
    requires ResponderIndex(rs, socket) == Some(i)
    ensures Record(Record(rs, socket, idx, first), socket, idx, second) == Record(rs, socket, idx, second)
    ensures StoredAnswer(Record(rs, socket, idx, second), socket, idx) == Some(second)
  {
    RecordTwiceExisting(rs, socket, idx, first, second, i);
    UpdateKeepsIndex(rs, i, Responder(socket, rs[i].answers[idx := second]), socket);
  }

  /** A socket's second answer to a question overwrites the first within its entry. */
  lemma RecordTwiceExisting(rs: seq<Responder>, socket: string, idx: int, first: string, second: string, i: nat)
    requires ResponderIndex(rs, socket) == Some(i)
    ensures Record(Record(rs, socket, idx, first), socket, idx, second) == rs[i := Responder(socket, rs[i].answers[idx := second])]
  {
    hide ResponderIndex;
    var y1 := Responder(socket, rs[i].answers[idx := first]);
    var y2 := Responder(socket, rs[i].answers[idx := second]);
    var once := rs[i := y1];
    assert Record(rs, socket, idx, first) == once;
    assert ResponderIndex(once, socket) == Some(i) by {
      UpdateKeepsIndex(rs, i, y1, socket);
    }
    assert Record(once, socket, idx, second) == once[i := y2] by {
      assert once[i].answers[idx := second] == rs[i].answers[idx := second];
    }
    assert once[i := y2] == rs[i := y2];
  }

  /** Replacing an entry by one with the same key keeps every key's position. */
  lemma UpdateKeepsIndex(rs: seq<Responder>, i: nat, x: Responder, s: string)
    requires i < |rs| && x.socketId == rs[i].socketId
    ensures ResponderIndex(rs[i := x], s) == ResponderIndex(rs, s)
  {
    assert forall j :: 0 <= j < |rs| ==> rs[i := x][j].socketId == rs[j].socketId;
    ResponderIndexSameKeys(rs, rs[i := x], s);
  }

  /** Recording an answer leaves every other (socket, question) pair as it was. */
  lemma RecordKeepsOthers(rs: seq<Responder>, socket: string, idx: int, answer: string, other: string, j: int)
    requires other != socket || j != idx
    ensures StoredAnswer(Record(rs, socket, idx, answer), other, j) == StoredAnswer(rs, other, j)
  {
    var r := Record(rs, socket, idx, answer);
    match ResponderIndex(rs, socket)
    case None =>
      if other != socket {
        assert ResponderIndex(r, other) == ResponderIndex(rs, other) by {
          ResponderIndexAppend(rs, Responder(socket, map[idx := answer]), other);
        }
      } else {
        ResponderIndexLast(rs, Responder(socket, map[idx := answer]));
      }
    case Some(i) =>
      assert ResponderIndex(r, other) == ResponderIndex(rs, other) by {
        ResponderIndexSameKeys(rs, r, other);
      }
  }

  lemma {:induction false} ResponderIndexAppend(rs: seq<Responder>, x: Responder, s: string)
    requires x.socketId != s
    ensures ResponderIndex(rs + [x], s) == ResponderIndex(rs, s)
  {
    if rs != [] {
      assert (rs + [x])[1..] == rs[1..] + [x];
      ResponderIndexAppend(rs[1..], x, s);
    }
  }

  lemma ResponderIndexSameKeys(a: seq<Responder>, b: seq<Responder>, s: string)
    requires |a| == |b| && forall j :: 0 <= j < |a| ==> a[j].socketId == b[j].socketId
    ensures ResponderIndex(a, s) == ResponderIndex(b, s)
  {
    match ResponderIndex(a, s)
    case Some(i) =>
    case None =>
  }

  /** `submit-mcq-response`: stores the answer (last write wins) and broadcasts the number of
      responding sockets against the participant count minus one. Any socket may answer,
      participant or not; an unknown session changes nothing and emits nothing. */
  function SubmitResponse(m: Meeting, socket: string, sessionId: string, idx: int, answer: string): (r: RoomStep)
    ensures SessionIndex(m.mcqs, sessionId).None? ==> r == RoomStep(m, [])
    ensures SessionIndex(m.mcqs, sessionId).Some? ==>
      var k := SessionIndex(m.mcqs, sessionId).value;
      var s := m.mcqs[k];
      && r.room == m.(mcqs := m.mcqs[k := s.(responses := Record(s.responses, socket, idx, answer))])
      && (DistinctResponders(s.responses) ==>
            r.out == [Emit(ToRoom(m.id), McqResponseUpdate(sessionId, |Sockets(s.responses) + {socket}|, |m.participants| - 1))])
  {
    match SessionIndex(m.mcqs, sessionId)
    case None => RoomStep(m, [])
    case Some(k) =>
      var s := m.mcqs[k];
      var rs := Record(s.responses, socket, idx, answer);
      RecordSockets(s.responses, socket, idx, answer);
      assert DistinctResponders(s.responses) ==> |Sockets(rs)| == |rs| by {
        if DistinctResponders(s.responses) { SocketsCount(rs); }
      }
      RoomStep(m.(mcqs := m.mcqs[k := s.(responses := rs)]),
               [Emit(ToRoom(m.id), McqResponseUpdate(sessionId, |rs|, |m.participants| - 1))])
  }

  // ---------------------------------------------------------------- analytics

  /** The histogram key of a responder for question `idx`: the answer, or "undefined" when
      the responder skipped it (JavaScript coerces the missing value to that key). */
  function AnswerKey(r: Responder, idx: int): string {
    if idx in r.answers then r.answers[idx] else "undefined"
  }

  /** Number of responders whose key for `idx` is `key`. */
  function CountKey(rs: seq<Responder>, idx: int, key: string): nat {
    if rs == [] then 0
    else CountKey(rs[..|rs| - 1], idx, key) + (if AnswerKey(rs[|rs| - 1], idx) == key then 1 else 0)
  }

  /** Number of responders whose stored answer for `idx` is exactly `answer`. */
  function CountExact(rs: seq<Responder>, idx: int, answer: string): nat {
    if rs == [] then 0
    else CountExact(rs[..|rs| - 1], idx, answer)
         + (if idx in rs[|rs| - 1].answers && rs[|rs| - 1].answers[idx] == answer then 1 else 0)
  }

  function Keys(h: seq<Bucket>): set<string> {
    if h == [] then {} else {h[0].answer} + Keys(h[1..])
  }

  predicate DistinctKeys(h: seq<Bucket>) {
    h == [] || (h[0].answer !in Keys(h[1..]) && DistinctKeys(h[1..]))
  }

  /** The count stored under `key`, 0 when the key is absent. */
  function BucketOf(h: seq<Bucket>, key: string): nat {
    if h == [] then 0 else if h[0].answer == key then h[0].count else BucketOf(h[1..], key)
  }

  /** Sum of the histogram's values. */
  function Total(h: seq<Bucket>): nat {
    if h == [] then 0 else h[0].count + Total(h[1..])
  }

  /** `responses[key] = (responses[key] || 0) + 1`. */
  function Tick(h: seq<Bucket>, key: string): (r: seq<Bucket>)
    ensures BucketOf(r, key) == BucketOf(h, key) + 1
    ensures forall k :: k != key ==> BucketOf(r, k) == BucketOf(h, k)
    ensures Total(r) == Total(h) + 1
    ensures Keys(r) == Keys(h) + {key}
    ensures DistinctKeys(h) ==> DistinctKeys(r)
  {
    if h == [] then [Bucket(key, 1)]
    else if h[0].answer == key then [h[0].(count := h[0].count + 1)] + h[1..]
    else [h[0]] + Tick(h[1..], key)
  }

  /** The histogram of answers to question `idx`, one bucket per answer given. Each key
      counts the responders that gave it, and the counts add up to the responders. */
  function Histogram(rs: seq<Responder>, idx: int): (h: seq<Bucket>)
    ensures forall k :: BucketOf(h, k) == CountKey(rs, idx, k)
    ensures Total(h) == |rs|
    ensures DistinctKeys(h)
  {
    if rs == [] then []
    else Tick(Histogram(rs[..|rs| - 1], idx), AnswerKey(rs[|rs| - 1], idx))
  }

  /** Exact matches are the responders under the answer's own key, unless the answer is the
      literal "undefined", whose key also collects the responders who skipped the question. */
  lemma {:induction false} ExactIsKeyCount(rs: seq<Responder>, idx: int, answer: string)
    requires answer != "undefined"
    ensures CountExact(rs, idx, answer) == CountKey(rs, idx, answer)
    decreases |rs|
  {
    if rs != [] {
      ExactIsKeyCount(rs[..|rs| - 1], idx, answer);
    }
  }

  /** One skipped answer and a canonical answer of "undefined": the histogram bucket holds
      the skip, the correct count does not. */
  lemma UndefinedAnswerQuirk(socket: string, idx: int)
    ensures var rs := [Responder(socket, map[])];
            BucketOf(Histogram(rs, idx), "undefined") == 1 && CountExact(rs, idx, "undefined") == 0
  {
    var rs := [Responder(socket, map[])];
    assert rs[..0] == [];
  }

  /** The analytics of question `i` of a session. */
  function QuestionReportOf(s: McqSession, i: nat): (q: QuestionReport)
    requires i < |s.mcqs|
    ensures q.questionIndex == i && q.question == s.mcqs[i].question && q.correctAnswer == s.mcqs[i].answer
    ensures Total(q.responses) == |s.responses|
    ensures forall k :: BucketOf(q.responses, k) == CountKey(s.responses, i, k)
    ensures q.correctCount == CountExact(s.responses, i, s.mcqs[i].answer)
    ensures q.correctCount <= |s.responses|
    ensures q.correctAnswer != "undefined" ==> q.correctCount == BucketOf(q.responses, q.correctAnswer)
  {
    var h := Histogram(s.responses, i);
    var c := CountExact(s.responses, i, s.mcqs[i].answer);
    ExactAtMost(s.responses, i, s.mcqs[i].answer);
    if s.mcqs[i].answer != "undefined" then
      ExactIsKeyCount(s.responses, i, s.mcqs[i].answer);
      QuestionReport(i, s.mcqs[i].question, s.mcqs[i].answer, h, c)
    else
      QuestionReport(i, s.mcqs[i].question, s.mcqs[i].answer, h, c)
  }

  lemma {:induction false} ExactAtMost(rs: seq<Responder>, idx: int, answer: string)
    ensures CountExact(rs, idx, answer) <= |rs|
    decreases |rs|
  {
    if rs != [] {
      ExactAtMost(rs[..|rs| - 1], idx, answer);
    }
  }

  /** The analytics payload of a session: one report per question, in question order. */
  function Report(s: McqSession, totalParticipants: int): (a: AnalyticsReport)
    ensures a.sessionId == s.id && a.totalParticipants == totalParticipants
    ensures a.totalResponses == |s.responses|
    ensures |a.questions| == |s.mcqs|
    ensures forall i :: 0 <= i < |s.mcqs| ==> a.questions[i] == QuestionReportOf(s, i)
  {
    AnalyticsReport(s.id, totalParticipants, |s.responses|,
                    seq(|s.mcqs|, i requires 0 <= i < |s.mcqs| => QuestionReportOf(s, i)))
  }

  /** `get-mcq-analytics`: the report goes to the requesting socket only, and only when the
      requester's own record carries the admin flag and the session exists; otherwise
      nothing is emitted. The room never changes. */
  function GetMcqAnalytics(m: Meeting, socket: string, sessionId: string): (out: seq<Emit>)
    ensures !RequesterIsAdmin(m.participants, socket) ==> out == []
    ensures SessionIndex(m.mcqs, sessionId).None? ==> out == []
    ensures RequesterIsAdmin(m.participants, socket) && SessionIndex(m.mcqs, sessionId).Some? ==>
      var s := m.mcqs[SessionIndex(m.mcqs, sessionId).value];
      && |out| == 1 && out[0].to == ToSocket(socket)
      && out[0].event.McqAnalytics?
      && out[0].event.report.totalParticipants == |m.participants| - 1
      && out[0].event.report == Report(s, |m.participants| - 1)
  {
    if !RequesterIsAdmin(m.participants, socket) then []
    else match SessionIndex(m.mcqs, sessionId)
      case None => []
      case Some(k) => [Emit(ToSocket(socket), McqAnalytics(Report(m.mcqs[k], |m.participants| - 1)))]
  }

  // ---------------------------------------------------------------- generation

  /** `topic || prompt`. */
  function ActualTopic(topic: Option<string>, prompt: Option<string>): Option<string> {
    if Truthy(topic) then topic else prompt
  }

  /** `difficulty || 'Medium'`. */
  function DifficultyLabel(difficulty: Option<string>): string {
    if Truthy(difficulty) then difficulty.value else "Medium"
  }

  /** How a template literal prints an optional string. */
  function Show(s: Option<string>): string {
    match s
    case Some(v) => v
    case None => "undefined"
  }

  /** `generate-mcq`: admin-gated; asks for five questions and broadcasts a new session
      holding between one and five well-formed questions. When the fallback throws (no topic
      and no prompt), the requester gets an `error` and the room is unchanged. */
  function GenerateMcq(m: Meeting, socket: string, uuid: string, prompt: Option<string>, topic: Option<string>,
                       difficulty: Option<string>, reply: McqReply): (r: RoomStep)
    ensures !RequesterIsAdmin(m.participants, socket) ==>
              r == RoomStep(m, [Emit(ToSocket(socket), Error("Only admins can generate MCQs"))])
    ensures RequesterIsAdmin(m.participants, socket) && GenerateMcqs(ActualTopic(topic, prompt), 5, reply).Failure? ==>
              && r.room == m
              && r.out == [Emit(ToSocket(socket), Error("Failed to generate MCQs: " + GenerateMcqs(ActualTopic(topic, prompt), 5, reply).error))]
    ensures RequesterIsAdmin(m.participants, socket) && GenerateMcqs(ActualTopic(topic, prompt), 5, reply).Success? ==>
              && |r.room.mcqs| == |m.mcqs| + 1
              && r.room == m.(mcqs := r.room.mcqs)
              && r.room.mcqs[..|m.mcqs|] == m.mcqs
              && var s := r.room.mcqs[|m.mcqs|];
              && s.id == uuid && s.responses == [] && !s.fromSummary
              && s.prompt == Show(ActualTopic(topic, prompt)) + " (" + DifficultyLabel(difficulty) + ")"
              && s.mcqs == GenerateMcqs(ActualTopic(topic, prompt), 5, reply).value
              && 1 <= |s.mcqs| <= 5
              && (forall i :: 0 <= i < |s.mcqs| ==> WellFormed(s.mcqs[i]))
              && r.out == [Emit(ToRoom(m.id), McqBroadcast(s))]
  {
    if !RequesterIsAdmin(m.participants, socket) then
      RoomStep(m, [Emit(ToSocket(socket), Error("Only admins can generate MCQs"))])
    else
      var actual := ActualTopic(topic, prompt);
      var level := DifficultyLabel(difficulty);
      match GenerateMcqs(actual, 5, reply)
      case Failure(e) => RoomStep(m, [Emit(ToSocket(socket), Error("Failed to generate MCQs: " + e))])
      case Success(qs) =>
        var s := McqSession(uuid, Show(actual) + " (" + level + ")", qs, [], false);
        RoomStep(m.(mcqs := m.mcqs + [s]), [Emit(ToRoom(m.id), McqBroadcast(s))])
  }

  /** `slice(-n)`: the last `n` entries, or all of them when there are fewer. JavaScript reads
      `-0` as `0`, so `slice(-0)` is the whole sequence. */
  function LastN<T>(s: seq<T>, n: nat): (r: seq<T>)
    ensures n == 0 ==> r == s
    ensures n > 0 ==> |r| == if |s| < n then |s| else n
    ensures r == s[|s| - |r|..]
  {
    if n == 0 || |s| <= n then s else s[|s| - n..]
  }

  function Texts(ts: seq<TranscriptEntry>): (r: seq<string>)
    ensures |r| == |ts| && forall i :: 0 <= i < |ts| ==> r[i] == ts[i].text
  {
    seq(|ts|, i requires 0 <= i < |ts| => ts[i].text)
  }

  const InsightsLead := "Class discussion insights: \""
  const EngagementLead := "\". Class engagement level: "
  const TranscriptLead := "Recent class discussion: \""

  /** The prompt `generate-from-summary` builds: from the summary's insights when there are
      any, otherwise from the last ten transcript texts; nothing when there is neither. */
  function SummaryPrompt(m: Meeting): (p: Option<string>)
    ensures p.None? <==> m.classSummary.mainInsights == [] && m.transcripts == []
    ensures m.classSummary.mainInsights != [] ==>
              && |p.value| >= |InsightsLead| + |Join(m.classSummary.mainInsights, ". ")|
              && p.value[..|InsightsLead|] == InsightsLead
              && p.value[|InsightsLead|..|InsightsLead| + |Join(m.classSummary.mainInsights, ". ")|] == Join(m.classSummary.mainInsights, ". ")
              && p.value[|InsightsLead| + |Join(m.classSummary.mainInsights, ". ")|..] == EngagementLead + IntToString(m.classSummary.engagementScore) + "/100."
    ensures m.classSummary.mainInsights == [] && m.transcripts != [] ==>
              var n := if |m.transcripts| < 10 then |m.transcripts| else 10;
              p.value == TranscriptLead + Join(Texts(m.transcripts[|m.transcripts| - n..]), " ") + "\"."
  {
    var insights := m.classSummary.mainInsights;
    if |insights| > 0 then
      var body := Join(insights, ". ");
      var tail := EngagementLead + IntToString(m.classSummary.engagementScore) + "/100.";
      var p := InsightsLead + body + tail;
      assert p[..|InsightsLead|] == InsightsLead;
      assert p[|InsightsLead|..|InsightsLead| + |body|] == body;
      assert p[|InsightsLead| + |body|..] == tail;
      Some(p)
    else if |m.transcripts| > 0 then
      var recent := LastN(m.transcripts, 10);
      Some(TranscriptLead + Join(Texts(recent), " ") + "\".")
    else None
  }

  const NoContentError := "No class content available yet. Please wait for initial transcription."

  /** `generate-from-summary` for an existing room: admin-gated; without insights or
      transcripts the requester gets a `question-generation-error`; otherwise a session built
      from the summary prompt is broadcast. The prompt is a string, so the generator's
      fallback never throws here. */
  function GenerateFromSummary(m: Meeting, socket: string, uuid: string, reply: McqReply): (r: RoomStep)
    ensures !RequesterIsAdmin(m.participants, socket) ==>
              r == RoomStep(m, [Emit(ToSocket(socket), Error("Only instructors can generate questions"))])
    ensures RequesterIsAdmin(m.participants, socket) && SummaryPrompt(m).None? ==>
              r == RoomStep(m, [Emit(ToSocket(socket), QuestionGenerationError(NoContentError))])
    ensures RequesterIsAdmin(m.participants, socket) && SummaryPrompt(m).Some? ==>
              && |r.room.mcqs| == |m.mcqs| + 1
              && r.room == m.(mcqs := r.room.mcqs)
              && r.room.mcqs[..|m.mcqs|] == m.mcqs
              && var s := r.room.mcqs[|m.mcqs|];
              && s.id == uuid && s.responses == [] && s.fromSummary
              && s.prompt == "Generated from class summary"
              && s.mcqs == GenerateMcqs(SummaryPrompt(m), 3, reply).value
              && r.out == [Emit(ToRoom(m.id), McqBroadcast(s))]
  {
    if !RequesterIsAdmin(m.participants, socket) then
      RoomStep(m, [Emit(ToSocket(socket), Error("Only instructors can generate questions"))])
    else match SummaryPrompt(m)
      case None => RoomStep(m, [Emit(ToSocket(socket), QuestionGenerationError(NoContentError))])
      case Some(p) =>
        var qs := GenerateMcqs(Some(p), 3, reply).value;
        var s := McqSession(uuid, "Generated from class summary", qs, [], true);
        RoomStep(m.(mcqs := m.mcqs + [s]), [Emit(ToRoom(m.id), McqBroadcast(s))])
  }

  /** Three questions are requested from the summary, but a failed reply falls back to a
      mock set of five. */
  lemma SummaryFallbackIgnoresCount(m: Meeting, socket: string, uuid: string)
    requires RequesterIsAdmin(m.participants, socket) && SummaryPrompt(m).Some?
    ensures |GenerateFromSummary(m, socket, uuid, CallFailed).room.mcqs[|m.mcqs|].mcqs| == 5
  {
    var p := SummaryPrompt(m).value;
    assert GenerateMcqs(Some(p), 3, CallFailed) == Success(MockMcqs(p));
    MockShape(p);
  }
}

=== FILE: room.dfy ===
/** The in-memory record the server keeps for each active meeting (the values of the
    `meetings` map), the events handlers emit, and the lookups every handler shares. */
module Room {
  import opened Wrappers

  /** The three sentiment kinds a participant may report. */
  datatype Sentiment = Good | Neutral | Negative

  /** One connected client in a room. `sentiment` is `None` until the first submission
      (and when a falsy value is submitted). */
  datatype Participant = Participant(id: string, displayName: string, isAdmin: bool, sentiment: Option<Sentiment>)

  /** `meeting.sentiment`: one counter per kind. JavaScript numbers, so they may in
      principle go negative; the invariant of the Sentiment module rules that out. */
  datatype Distribution = Distribution(good: int, neutral: int, negative: int)

  const ZeroDistribution := Distribution(0, 0, 0)

  function CountOf(d: Distribution, k: Sentiment): int {
    match k
    case Good => d.good
    case Neutral => d.neutral
    case Negative => d.negative
  }

  /** `d[k] += delta`, every other counter unchanged. */
  function Bump(d: Distribution, k: Sentiment, delta: int): (r: Distribution)
    ensures CountOf(r, k) == CountOf(d, k) + delta
    ensures forall j :: j != k ==> CountOf(r, j) == CountOf(d, j)
  {
    match k
    case Good => d.(good := d.good + delta)
    case Neutral => d.(neutral := d.neutral + delta)
    case Negative => d.(negative := d.negative + delta)
  }

  /** One multiple-choice question as stored in a session. */
  datatype Mcq = Mcq(question: string, options: seq<string>, answer: string, explanation: Option<string>)

  /** The answers one socket submitted to a session: question index to answer. */
  datatype Responder = Responder(socketId: string, answers: map<int, string>)

  /** A quiz session. `responses` is the JavaScript `Map` from socket id to answers, kept
      as a list in insertion order. */
  datatype McqSession = McqSession(id: string, prompt: string, mcqs: seq<Mcq>, responses: seq<Responder>, fromSummary: bool)

  datatype TranscriptEntry = TranscriptEntry(text: string, speaker: string)

  datatype ClassSummary = ClassSummary(
    totalTranscripts: int,
    keyTopics: seq<string>,
    averageSentiment: string,
    engagementScore: int,
    mainInsights: seq<string>)

  /** The summary every new room starts with. */
  const DefaultSummary := ClassSummary(0, [], "neutral", 0, [])

  /** A chat message; `reactions` maps a reaction kind to the names of those who reacted. */
  datatype Message = Message(
    id: string,
    userId: string,
    userName: string,
    userRole: string,
    text: string,
    reactions: map<string, seq<string>>)

  /** One meeting. `admin` holds the socket id of the participant record the source stores
      in `meeting.admin`; only its id is ever read. */
  datatype Meeting = Meeting(
    id: string,
    admin: Option<string>,
    participants: seq<Participant>,
    sentiment: Distribution,
    mcqs: seq<McqSession>,
    transcripts: seq<TranscriptEntry>,
    classSummary: ClassSummary,
    messages: seq<Message>)

  /** The record `join-room` creates for an unseen room code. */
  function NewMeeting(id: string): (m: Meeting)
    ensures m.id == id && m.admin.None? && m.participants == [] && m.sentiment == ZeroDistribution
    ensures m.mcqs == [] && m.transcripts == [] && m.messages == [] && m.classSummary == DefaultSummary
  {
    Meeting(id, None, [], ZeroDistribution, [], [], DefaultSummary, [])
  }

  /** One histogram entry of the quiz analytics: an answer key and how many responders gave it. */
  datatype Bucket = Bucket(answer: string, count: nat)

  datatype QuestionReport = QuestionReport(
    questionIndex: nat,
    question: string,
    correctAnswer: string,
    responses: seq<Bucket>,
    correctCount: nat)

  datatype AnalyticsReport = AnalyticsReport(
    sessionId: string,
    totalParticipants: int,
    totalResponses: nat,
    questions: seq<QuestionReport>)

  /** Where an emission goes: every socket joined to a room, or one socket. */
  datatype Target = ToRoom(roomId: string) | ToSocket(socketId: string)

  /** The outbound events of the room protocol with their payloads. */
  datatype Event =
    | ParticipantRequest(requester: string, requesterName: string)
    | ParticipantApproved
    | ParticipantDenied
    | RoomState(participants: seq<Participant>, distribution: Distribution)
    | SentimentUpdated(participantId: string, submitted: Option<Sentiment>, newDistribution: Distribution)
    | Error(message: string)
    | UserRemoved
    | ForceMute
    | McqBroadcast(session: McqSession)
    | McqResponseUpdate(sessionId: string, totalResponses: int, totalParticipants: int)
    | McqAnalytics(report: AnalyticsReport)
    | TranscriptCreated(transcript: TranscriptEntry, totalTranscripts: int)
    | MeetingEnded(summary: ClassSummary)
    | QuestionGenerationError(reason: string)
    | ReceiveMessage(posted: Message)
    | MessageReactionUpdated(messageId: string, reactions: map<string, seq<string>>)

  datatype Emit = Emit(to: Target, event: Event)

  /** The result of one handler applied to one room: the new record and what it emitted. */
  datatype RoomStep = RoomStep(room: Meeting, out: seq<Emit>)

  /** The `room-state` broadcast every participant-visible change ends with. */
  function Broadcast(m: Meeting): Emit {
    Emit(ToRoom(m.id), RoomState(m.participants, m.sentiment))
  }

  /** `participants.findIndex(p => p.id === id)`. */
  function ParticipantIndex(ps: seq<Participant>, id: string): (r: Option<nat>)
    ensures r.Some? ==> r.value < |ps| && ps[r.value].id == id
    ensures r.Some? ==> forall j :: 0 <= j < r.value ==> ps[j].id != id
    ensures r.None? ==> forall j :: 0 <= j < |ps| ==> ps[j].id != id
  {
    if ps == [] then None
    else if ps[0].id == id then Some(0)
    else match ParticipantIndex(ps[1..], id)
      case Some(i) => Some(i + 1)
      case None => None
  }

  /** `requester?.isAdmin` for `requester = participants.find(p => p.id === id)`: the first
      record with that id exists and carries the admin flag. */
  predicate RequesterIsAdmin(ps: seq<Participant>, id: string) {
    match ParticipantIndex(ps, id)
    case Some(i) => ps[i].isAdmin
    case None => false
  }

  /** `splice(i, 1)`. */
  function RemoveAt<T>(s: seq<T>, i: nat): (r: seq<T>)
    requires i < |s|
    ensures |r| == |s| - 1
    ensures forall j :: 0 <= j < i ==> r[j] == s[j]
    ensures forall j :: i <= j < |r| ==> r[j] == s[j + 1]
  {
    s[..i] + s[i + 1..]
  }

  /** Drops the first participant whose id is `id`; the list is unchanged when there is none. */
  function RemoveFirst(ps: seq<Participant>, id: string): seq<Participant> {
    match ParticipantIndex(ps, id)
    case Some(i) => RemoveAt(ps, i)
    case None => ps
  }
}

=== FILE: sentiment.dfy ===
/** The sentiment distribution of a room and the invariant tying it to the participants:
    `meeting.sentiment[k]` is the number of participants whose sentiment is `k`.
    `submit-sentiment` re-establishes it by recounting; removal and disconnect keep it by
    decrementing the removed participant's kind. */
module SentimentTally {
  import opened Wrappers
  import opened Room

  /** 1 when `p` currently reports `k`, else 0. */
  function Own(p: Participant, k: Sentiment): nat {
    if p.sentiment == Some(k) then 1 else 0
  }

  /** Number of participants in `ps` whose sentiment is `k`. */
  function Count(ps: seq<Participant>, k: Sentiment): nat {
    if ps == [] then 0 else Count(ps[..|ps| - 1], k) + Own(ps[|ps| - 1], k)
  }

  /** The distribution a full recount of `ps` yields. */
  function Tally(ps: seq<Participant>): Distribution {
    Distribution(Count(ps, Good), Count(ps, Neutral), Count(ps, Negative))
  }

  /** The room invariant: the stored distribution agrees with a recount of the participants. */
  predicate Consistent(m: Meeting) {
    m.sentiment == Tally(m.participants)
  }

  /** `if (removed.sentiment) meeting.sentiment[removed.sentiment]--`. */
  function Decrement(d: Distribution, s: Option<Sentiment>): (r: Distribution)
    ensures forall k :: CountOf(r, k) == CountOf(d, k) - (if s == Some(k) then 1 else 0)
  {
    match s
    case Some(k) => Bump(d, k, -1)
    case None => d
  }

  /** The recount loop of `submit-sentiment`: start from zero and add one for every
      participant with a sentiment. */
  method Recount(ps: seq<Participant>) returns (d: Distribution)
    ensures forall k :: CountOf(d, k) == Count(ps, k)
  {
    d := ZeroDistribution;
    for i := 0 to |ps|
      invariant forall k :: CountOf(d, k) == Count(ps[..i], k)
    {
      assert ps[..i + 1][..i] == ps[..i];
      match ps[i].sentiment
      case Some(k) => d := Bump(d, k, 1);
      case None =>
    }
    assert ps[..|ps|] == ps;
  }

  lemma {:induction false} CountAppend(a: seq<Participant>, b: seq<Participant>, k: Sentiment)
    ensures Count(a + b, k) == Count(a, k) + Count(b, k)
    decreases |b|
  {
    if b == [] {
      assert a + b == a;
    } else {
      var n := |b| - 1;
      assert (a + b)[..|a + b| - 1] == a + b[..n];
      assert (a + b)[|a + b| - 1] == b[n];
      CountAppend(a, b[..n], k);
    }
  }

  lemma CountSingle(p: Participant, k: Sentiment)
    ensures Count([p], k) == Own(p, k)
  {
    assert [p][..0] == [];
  }

  /** Splicing out entry `i` lowers the count of `i`'s kind by one and leaves the others. */
  lemma CountRemoveAt(ps: seq<Participant>, i: nat, k: Sentiment)
    requires i < |ps|
    ensures Count(RemoveAt(ps, i), k) == Count(ps, k) - Own(ps[i], k)
  {
    assert ps == ps[..i] + [ps[i]] + ps[i + 1..];
    CountAppend(ps[..i] + [ps[i]], ps[i + 1..], k);
    CountAppend(ps[..i], [ps[i]], k);
    CountAppend(ps[..i], ps[i + 1..], k);
    CountSingle(ps[i], k);
  }

  /** Replacing entry `i` swaps its contribution for the new entry's. */
  lemma CountUpdateAt(ps: seq<Participant>, i: nat, p: Participant, k: Sentiment)
    requires i < |ps|
    ensures Count(ps[i := p], k) == Count(ps, k) - Own(ps[i], k) + Own(p, k)
  {
    assert ps == ps[..i] + [ps[i]] + ps[i + 1..];
    assert ps[i := p] == ps[..i] + [p] + ps[i + 1..];
    CountAppend(ps[..i] + [ps[i]], ps[i + 1..], k);
    CountAppend(ps[..i], [ps[i]], k);
    CountAppend(ps[..i] + [p], ps[i + 1..], k);
    CountAppend(ps[..i], [p], k);
    CountSingle(ps[i], k);
    CountSingle(p, k);
  }

  /** Removing a participant and decrementing its kind keeps the invariant: the incremental
      strategy of `remove-user` and `disconnect` agrees with a recount. */
  lemma DecrementMatchesRecount(ps: seq<Participant>, d: Distribution, i: nat)
    requires i < |ps| && d == Tally(ps)
    ensures Decrement(d, ps[i].sentiment) == Tally(RemoveAt(ps, i))
  {
    forall k ensures Count(RemoveAt(ps, i), k) == Count(ps, k) - Own(ps[i], k) {
      CountRemoveAt(ps, i, k);
    }
    var r := Decrement(d, ps[i].sentiment);
    assert CountOf(r, Good) == CountOf(d, Good) - Own(ps[i], Good);
    assert CountOf(r, Neutral) == CountOf(d, Neutral) - Own(ps[i], Neutral);
    assert CountOf(r, Negative) == CountOf(d, Negative) - Own(ps[i], Negative);
  }

  /** Appending a participant without a sentiment leaves the recount unchanged. */
  lemma {:induction false} TallyAppendSilent(ps: seq<Participant>, p: Participant)
    requires p.sentiment.None?
    ensures Tally(ps + [p]) == Tally(ps)
  {
    assert (ps + [p])[..|ps + [p]| - 1] == ps;
  }
}

=== FILE: server.dfy ===
/** The room registry of server/server.js (the `meetings` map) and the single dispatcher
    that applies one inbound socket event to it. Every handler is atomic, as on Node's event
    loop; values the source draws from uuid, the generative service or the transcriber come
    in through `Env`. */
module Server {
  import opened Wrappers
  import opened Room
  import opened SentimentTally
  import Lifecycle
  import McqGen
  import Quiz
  import Transcripts
  import Chat

  /** The `meetings` map: room codes in insertion order (the order `forEach` visits them)
      and the record of each. */
  datatype Registry = Registry(codes: seq<string>, rooms: map<string, Meeting>)

  const EmptyRegistry := Registry([], map[])

  /** Codes are listed once each, exactly the keys, and each record carries its own code. */
  ghost predicate Wf(reg: Registry) {
    && (forall i, j :: 0 <= i < j < |reg.codes| ==> reg.codes[i] != reg.codes[j])
    && (forall c :: c in reg.rooms <==> c in reg.codes)
    && (forall c :: c in reg.rooms ==> reg.rooms[c].id == c)
  }

  /** What each room keeps true between events: the sentiment counters agree with the
      participants, each quiz session holds each socket once, and every message's reactions
      are non-empty lists of distinct names. */
  predicate RoomInv(m: Meeting) {
    && Consistent(m)
    && (forall k :: 0 <= k < |m.mcqs| ==> Quiz.DistinctResponders(m.mcqs[k].responses))
    && (forall k :: 0 <= k < |m.messages| ==> Chat.WellFormedReactions(m.messages[k].reactions))
  }

  ghost predicate Inv(reg: Registry) {
    Wf(reg) && forall c :: c in reg.rooms ==> RoomInv(reg.rooms[c])
  }

  function Lookup(reg: Registry, code: string): (r: Option<Meeting>)
    ensures r.Some? <==> code in reg.rooms
    ensures r.Some? ==> r.value == reg.rooms[code]
  {
    if code in reg.rooms then Some(reg.rooms[code]) else None
  }

  /** `meetings.set(m.id, m)`: an existing code keeps its place, a new one goes last. */
  function Put(reg: Registry, m: Meeting): (r: Registry)
    ensures r.rooms == reg.rooms[m.id := m]
    ensures m.id in reg.rooms ==> r.codes == reg.codes
    ensures m.id !in reg.rooms ==> r.codes == reg.codes + [m.id]
    ensures Wf(reg) ==> Wf(r)
  {
    if m.id in reg.rooms then Registry(reg.codes, reg.rooms[m.id := m])
    else Registry(reg.codes + [m.id], reg.rooms[m.id := m])
  }

  datatype Step = Step(reg: Registry, out: seq<Emit>)

  /** Stores a handler's new room record and passes its emissions on. */
  function Apply(reg: Registry, s: RoomStep): Step {
    Step(Put(reg, s.room), s.out)
  }

  /** The `disconnect` sweep over `codes`, in order: each room drops the socket's first
      record independently; emissions are concatenated in visiting order. The set of
      rooms never changes. */
  function Sweep(codes: seq<string>, rooms: map<string, Meeting>, socket: string): (r: (map<string, Meeting>, seq<Emit>))
    requires forall i :: 0 <= i < |codes| ==> codes[i] in rooms
    ensures r.0.Keys == rooms.Keys
    decreases |codes|
  {
    if codes == [] then (rooms, [])
    else
      var c := codes[0];
      var here := Lifecycle.DisconnectFrom(rooms[c], socket);
      var rest := Sweep(codes[1..], rooms[c := here.room], socket);
      (rest.0, here.out + rest.1)
  }

  /** Rooms the sweep does not visit keep their records. */
  lemma {:induction false} SweepLeavesOthers(codes: seq<string>, rooms: map<string, Meeting>, socket: string, c: string)
    requires forall i :: 0 <= i < |codes| ==> codes[i] in rooms
    requires c in rooms && c !in codes
    ensures Sweep(codes, rooms, socket).0[c] == rooms[c]
    decreases |codes|
  {
    if codes != [] {
      var here := Lifecycle.DisconnectFrom(rooms[codes[0]], socket);
      SweepLeavesOthers(codes[1..], rooms[codes[0] := here.room], socket, c);
    }
  }

  /** Each visited room, listed once, ends as `DisconnectFrom` leaves it on its own. */
  lemma {:induction false} SweepVisits(codes: seq<string>, rooms: map<string, Meeting>, socket: string, c: string)
    requires forall i :: 0 <= i < |codes| ==> codes[i] in rooms
    requires forall i, j :: 0 <= i < j < |codes| ==> codes[i] != codes[j]
    requires c in codes
    ensures Sweep(codes, rooms, socket).0[c] == Lifecycle.DisconnectFrom(rooms[c], socket).room
    decreases |codes|
  {
    var d := codes[0];
    var here := Lifecycle.DisconnectFrom(rooms[d], socket);
    var next := rooms[d := here.room];
    if c == d {
      assert c !in codes[1..];
      SweepLeavesOthers(codes[1..], next, socket, c);
    } else {
      assert c in codes[1..];
      SweepVisits(codes[1..], next, socket, c);
    }
  }

  /** The sweep emits nothing exactly when no visited room holds the socket. */
  lemma {:induction false} SweepSilent(codes: seq<string>, rooms: map<string, Meeting>, socket: string)
    requires forall i :: 0 <= i < |codes| ==> codes[i] in rooms
    requires forall i, j :: 0 <= i < j < |codes| ==> codes[i] != codes[j]
    ensures Sweep(codes, rooms, socket).1 == [] <==>
              forall i :: 0 <= i < |codes| ==> ParticipantIndex(rooms[codes[i]].participants, socket).None?
    decreases |codes|
  {
    if codes != [] {
      var c := codes[0];
      var here := Lifecycle.DisconnectFrom(rooms[c], socket);
      var next := rooms[c := here.room];
      assert forall i :: 1 <= i < |codes| ==> next[codes[i]] == rooms[codes[i]];
      SweepSilent(codes[1..], next, socket);
    }
  }

  /** The broadcasts `disconnect` owes: one per listed room that holds the socket, in list
      order, each showing that room with the socket's first record gone. */
  function Broadcasts(codes: seq<string>, rooms: map<string, Meeting>, socket: string): seq<Emit>
    requires forall i :: 0 <= i < |codes| ==> codes[i] in rooms
    decreases |codes|
  {
    if codes == [] then []
    else
      var m := rooms[codes[0]];
      (if ParticipantIndex(m.participants, socket).Some? then [Broadcast(Lifecycle.DisconnectFrom(m, socket).room)] else [])
      + Broadcasts(codes[1..], rooms, socket)
  }

  /** The broadcasts depend only on the listed rooms. */
  lemma {:induction false} BroadcastsAgree(codes: seq<string>, rooms: map<string, Meeting>, other: map<string, Meeting>, socket: string)
    requires forall i :: 0 <= i < |codes| ==> codes[i] in rooms && codes[i] in other && rooms[codes[i]] == other[codes[i]]
    ensures Broadcasts(codes, rooms, socket) == Broadcasts(codes, other, socket)
    decreases |codes|
  {
    if codes != [] {
      BroadcastsAgree(codes[1..], rooms, other, socket);
    }
  }

  /** The sweep emits exactly the owed broadcasts, in list order: each room is swept as it
      stood before the event, since no code is listed twice. */
  lemma {:induction false} SweepEmits(codes: seq<string>, rooms: map<string, Meeting>, socket: string)
    requires forall i :: 0 <= i < |codes| ==> codes[i] in rooms
    requires forall i, j :: 0 <= i < j < |codes| ==> codes[i] != codes[j]
    ensures Sweep(codes, rooms, socket).1 == Broadcasts(codes, rooms, socket)
    decreases |codes|
  {
    if codes != [] {
      var c := codes[0];
      var here := Lifecycle.DisconnectFrom(rooms[c], socket);
      var next := rooms[c := here.room];
      SweepEmits(codes[1..], next, socket);
      BroadcastsAgree(codes[1..], next, rooms, socket);
    }
  }

  /** `disconnect`: every room drops the socket's first record and re-broadcasts; a socket
      with no record anywhere is a silent no-op. The set of rooms never changes. */
  function Disconnect(reg: Registry, socket: string): (r: Step)
    requires Wf(reg)
    ensures r.reg.codes == reg.codes && r.reg.rooms.Keys == reg.rooms.Keys
    ensures forall c :: c in reg.rooms ==> r.reg.rooms[c] == Lifecycle.DisconnectFrom(reg.rooms[c], socket).room
    ensures r.out == Broadcasts(reg.codes, reg.rooms, socket)
    ensures r.out == [] <==> forall c :: c in reg.rooms ==> ParticipantIndex(reg.rooms[c].participants, socket).None?
  {
    var swept := Sweep(reg.codes, reg.rooms, socket);
    assert forall c :: c in reg.rooms ==> swept.0[c] == Lifecycle.DisconnectFrom(reg.rooms[c], socket).room by {
      forall c | c in reg.rooms {
        SweepVisits(reg.codes, reg.rooms, socket, c);
      }
    }
    assert swept.1 == [] <==> forall c :: c in reg.rooms ==> ParticipantIndex(reg.rooms[c].participants, socket).None? by {
      SweepSilent(reg.codes, reg.rooms, socket);
      assert (forall i :: 0 <= i < |reg.codes| ==> ParticipantIndex(reg.rooms[reg.codes[i]].participants, socket).None?)
         <==> forall c :: c in reg.rooms ==> ParticipantIndex(reg.rooms[c].participants, socket).None?;
    }
    assert swept.1 == Broadcasts(reg.codes, reg.rooms, socket) by {
      SweepEmits(reg.codes, reg.rooms, socket);
    }
    Step(Registry(reg.codes, swept.0), swept.1)
  }

  /** Values the source obtains from outside the room: a fresh uuid, the generative
      service's MCQ reply, the transcriber's text, and the summariser's reply. */
  datatype Env = Env(uuid: string, mcqReply: McqGen.McqReply, transcription: string, summary: Option<Transcripts.SummaryReply>)

  /** The inbound events of the room protocol the model covers. */
  datatype Inbound =
    | RequestToJoin(roomId: string, displayName: string)
    | ApproveParticipant(approveRoom: string, approved: string)
    | DenyParticipant(denyRoom: string, denied: string)
    | JoinRoom(joinRoom: string, joinName: string, isAdmin: bool)
    | UpdateName(nameRoom: string, newName: string)
    | SubmitSentiment(sentimentRoom: string, value: Option<Sentiment>)
    | RemoveUser(removeRoom: string, removeTarget: string)
    | MuteUser(muteRoom: string, muteTarget: string)
    | GenerateMcq(mcqRoom: string, prompt: Option<string>, topic: Option<string>, difficulty: Option<string>)
    | SubmitMcqResponse(responseRoom: string, sessionId: string, questionIndex: int, answer: string)
    | GetMcqAnalytics(analyticsRoom: string, analyticsSession: string)
    | SendTranscriptChunk(chunkRoom: string, text: string, speaker: Option<string>)
    | AudioChunkRecorded(audioRoom: string)
    | EndMeeting(endRoom: string)
    | GenerateFromSummary(summaryRoom: string)
    | SendMessage(messageRoom: string, userId: string, userName: string, userRole: string, messageText: string)
    | ReactToMessage(reactRoom: string, messageId: string, reactionType: string, reactorName: string)
    | Disconnect

  /** The events a room must exist for, with the code they name. */
  predicate InRoom(ev: Inbound) {
    !(ev.RequestToJoin? || ev.ApproveParticipant? || ev.DenyParticipant? || ev.JoinRoom? || ev.Disconnect?)
  }

  function Code(ev: Inbound): string
    requires InRoom(ev)
  {
    match ev
    case UpdateName(code, _) => code
    case SubmitSentiment(code, _) => code
    case RemoveUser(code, _) => code
    case MuteUser(code, _) => code
    case GenerateMcq(code, _, _, _) => code
    case SubmitMcqResponse(code, _, _, _) => code
    case GetMcqAnalytics(code, _) => code
    case SendTranscriptChunk(code, _, _) => code
    case AudioChunkRecorded(code) => code
    case EndMeeting(code) => code
    case GenerateFromSummary(code) => code
    case SendMessage(code, _, _, _, _) => code
    case ReactToMessage(code, _, _, _) => code
  }

  /** Events that change the participant list or its counters. */
  predicate LifecycleEvent(ev: Inbound) {
    ev.UpdateName? || ev.SubmitSentiment? || ev.RemoveUser? || ev.MuteUser?
  }

  /** Events that create quiz sessions, record answers or report on them. */
  predicate QuizEvent(ev: Inbound) {
    ev.GenerateMcq? || ev.SubmitMcqResponse? || ev.GetMcqAnalytics? || ev.GenerateFromSummary?
  }

  /** Events that append to the transcript, the summary or the chat. */
  predicate ContentEvent(ev: Inbound) {
    ev.SendTranscriptChunk? || ev.AudioChunkRecorded? || ev.EndMeeting? || ev.SendMessage? || ev.ReactToMessage?
  }

  function DispatchLifecycle(m: Meeting, socket: string, ev: Inbound): (r: RoomStep)
    requires LifecycleEvent(ev)
    ensures r.room.id == m.id
    ensures ev.MuteUser? ==> r.room == m
  {
    match ev
    case UpdateName(_, name) => Lifecycle.UpdateName(m, socket, name)
    case SubmitSentiment(_, value) => Lifecycle.SubmitSentiment(m, socket, value)
    case RemoveUser(_, target) => Lifecycle.RemoveUser(m, socket, target)
    case MuteUser(_, target) => RoomStep(m, Lifecycle.MuteUser(m, socket, target))
  }

  function DispatchQuiz(m: Meeting, socket: string, ev: Inbound, env: Env): (r: RoomStep)
    requires QuizEvent(ev)
    ensures r.room.id == m.id
    ensures ev.GetMcqAnalytics? ==> r.room == m
  {
    match ev
    case GenerateMcq(_, prompt, topic, difficulty) =>
      Quiz.GenerateMcq(m, socket, env.uuid, prompt, topic, difficulty, env.mcqReply)
    case SubmitMcqResponse(_, sessionId, idx, answer) => Quiz.SubmitResponse(m, socket, sessionId, idx, answer)
    case GetMcqAnalytics(_, sessionId) => RoomStep(m, Quiz.GetMcqAnalytics(m, socket, sessionId))
    case GenerateFromSummary(_) => Quiz.GenerateFromSummary(m, socket, env.uuid, env.mcqReply)
  }

  function DispatchContent(m: Meeting, ev: Inbound, env: Env): (r: RoomStep)
    requires ContentEvent(ev)
    ensures r.room.id == m.id
  {
    match ev
    case SendTranscriptChunk(_, text, speaker) => Transcripts.SendTranscriptChunk(m, text, speaker)
    case AudioChunkRecorded(_) => Transcripts.AudioChunkRecorded(m, env.transcription)
    case EndMeeting(_) => Transcripts.EndMeeting(m, env.summary)
    case SendMessage(_, userId, userName, userRole, text) => Chat.SendMessage(m, env.uuid, userId, userName, userRole, text)
    case ReactToMessage(_, messageId, kind, name) => Chat.ReactToMessage(m, messageId, kind, name)
  }

  /** An event applied to the existing room it names. Handlers that only emit leave the
      room as it was; none changes the room's code. */
  function Dispatch(m: Meeting, socket: string, ev: Inbound, env: Env): (r: RoomStep)
    requires InRoom(ev)
    ensures r.room.id == m.id
    ensures ev.MuteUser? || ev.GetMcqAnalytics? ==> r.room == m
  {
    hide DispatchLifecycle, DispatchQuiz, DispatchContent;
    if LifecycleEvent(ev) then DispatchLifecycle(m, socket, ev)
    else if QuizEvent(ev) then DispatchQuiz(m, socket, ev, env)
    else DispatchContent(m, ev, env)
  }

  /** The error `generate-from-summary` reports for an unknown room code. */
  const MeetingNotFound := "Meeting not found"

  /** An event addressed to a room that must already exist: a silent no-op for an unknown
      code, except that `generate-from-summary` reports "Meeting not found". */
  function HandleInRoom(reg: Registry, socket: string, ev: Inbound, env: Env): (r: Step)
    requires Wf(reg) && InRoom(ev)
    ensures Wf(r.reg)
    ensures Code(ev) !in reg.rooms ==>
              r.reg == reg && r.out == (if ev.GenerateFromSummary? then [Emit(ToSocket(socket), QuestionGenerationError(MeetingNotFound))] else [])
    ensures Code(ev) in reg.rooms ==>
              var d := Dispatch(reg.rooms[Code(ev)], socket, ev, env);
              && r.out == d.out
              && r.reg.codes == reg.codes
              && r.reg.rooms == reg.rooms[Code(ev) := d.room]
    ensures ev.MuteUser? || ev.GetMcqAnalytics? ==> r.reg == reg
  {
    hide Dispatch;
    var code := Code(ev);
    if code !in reg.rooms then
      Step(reg, if ev.GenerateFromSummary? then [Emit(ToSocket(socket), QuestionGenerationError(MeetingNotFound))] else [])
    else if ev.MuteUser? || ev.GetMcqAnalytics? then
      Step(reg, Dispatch(reg.rooms[code], socket, ev, env).out)
    else
      Apply(reg, Dispatch(reg.rooms[code], socket, ev, env))
  }

  /** Admission, joining and disconnecting: the events that may name a room that does not
      exist yet, or none at all. Admission decisions never touch the registry. */
  function HandleSession(reg: Registry, socket: string, ev: Inbound): (r: Step)
    requires Wf(reg) && !InRoom(ev)
    ensures Wf(r.reg)
    ensures ev.ApproveParticipant? || ev.DenyParticipant? || ev.RequestToJoin? ==> r.reg == reg
    ensures ev.RequestToJoin? ==> r.out == Lifecycle.RequestToJoin(Lookup(reg, ev.roomId), socket, ev.displayName)
    ensures ev.ApproveParticipant? ==> r.out == Lifecycle.Decide(ev.approved, true)
    ensures ev.DenyParticipant? ==> r.out == Lifecycle.Decide(ev.denied, false)
    ensures ev.JoinRoom? ==>
              var j := Lifecycle.JoinRoom(Lookup(reg, ev.joinRoom), ev.joinRoom, socket, ev.joinName, ev.isAdmin);
              && r.out == j.out
              && r.reg.rooms == reg.rooms[ev.joinRoom := j.room]
              && r.reg.codes == (if ev.joinRoom in reg.rooms then reg.codes else reg.codes + [ev.joinRoom])
    ensures ev.Disconnect? ==> r == Disconnect(reg, socket)
  {
    match ev
    case RequestToJoin(code, name) => Step(reg, Lifecycle.RequestToJoin(Lookup(reg, code), socket, name))
    case ApproveParticipant(_, target) => Step(reg, Lifecycle.Decide(target, true))
    case DenyParticipant(_, target) => Step(reg, Lifecycle.Decide(target, false))
    case JoinRoom(code, name, isAdmin) => Apply(reg, Lifecycle.JoinRoom(Lookup(reg, code), code, socket, name, isAdmin))
    case Disconnect => Disconnect(reg, socket)
  }

  /** The one choke point: applies inbound event `ev` from `socket`. Events addressed to an
      unknown room are silent no-ops, except `join-room` (creates it), `request-to-join`
      (auto-approves) and `generate-from-summary` (reports "Meeting not found"). */
  function Handle(reg: Registry, socket: string, ev: Inbound, env: Env): (r: Step)
    requires Wf(reg)
    ensures Wf(r.reg)
    ensures InRoom(ev) && Code(ev) !in reg.rooms ==>
              r.reg == reg && r.out == (if ev.GenerateFromSummary? then [Emit(ToSocket(socket), QuestionGenerationError(MeetingNotFound))] else [])
    ensures InRoom(ev) && Code(ev) in reg.rooms ==>
              var d := Dispatch(reg.rooms[Code(ev)], socket, ev, env);
              && r.out == d.out
              && r.reg.codes == reg.codes
              && r.reg.rooms == reg.rooms[Code(ev) := d.room]
    ensures ev.JoinRoom? ==>
              var j := Lifecycle.JoinRoom(Lookup(reg, ev.joinRoom), ev.joinRoom, socket, ev.joinName, ev.isAdmin);
              && r.out == j.out
              && r.reg.rooms == reg.rooms[ev.joinRoom := j.room]
              && r.reg.codes == (if ev.joinRoom in reg.rooms then reg.codes else reg.codes + [ev.joinRoom])
    ensures ev.Disconnect? ==> r == Disconnect(reg, socket)
    ensures ev.ApproveParticipant? || ev.DenyParticipant? || ev.RequestToJoin? || ev.MuteUser? || ev.GetMcqAnalytics? ==> r.reg == reg
  {
    hide HandleInRoom, HandleSession;
    if InRoom(ev) then HandleInRoom(reg, socket, ev, env) else HandleSession(reg, socket, ev)
  }

  /** A handler that keeps its room's invariant keeps the registry's. */
  lemma ApplyKeepsInv(reg: Registry, s: RoomStep)
    requires Inv(reg) && RoomInv(s.room) && (s.room.id in reg.rooms || s.room.id !in reg.codes)
    ensures Inv(Apply(reg, s).reg)
  {
  }

  lemma JoinKeepsRoomInv(room: Option<Meeting>, code: string, socket: string, name: string, isAdmin: bool)
    requires room.Some? ==> room.value.id == code && RoomInv(room.value)
    ensures RoomInv(Lifecycle.JoinRoom(room, code, socket, name, isAdmin).room)
  {
    var base := room.GetOr(NewMeeting(code));
    assert RoomInv(base);
  }

  lemma UpdateNameKeepsRoomInv(m: Meeting, socket: string, name: string)
    requires RoomInv(m)
    ensures RoomInv(Lifecycle.UpdateName(m, socket, name).room)
  {
  }

  lemma SubmitSentimentKeepsRoomInv(m: Meeting, socket: string, value: Option<Sentiment>)
    requires RoomInv(m)
    ensures RoomInv(Lifecycle.SubmitSentiment(m, socket, value).room)
  {
  }

  lemma RemoveUserKeepsRoomInv(m: Meeting, socket: string, target: string)
    requires RoomInv(m)
    ensures RoomInv(Lifecycle.RemoveUser(m, socket, target).room)
  {
    if RequesterIsAdmin(m.participants, socket) && ParticipantIndex(m.participants, target).Some? {
      var e := Lifecycle.Evict(m, target).value;
      assert RoomInv(e);
    }
  }

  lemma DisconnectFromKeepsRoomInv(m: Meeting, socket: string)
    requires RoomInv(m)
    ensures RoomInv(Lifecycle.DisconnectFrom(m, socket).room)
    ensures Lifecycle.DisconnectFrom(m, socket).room.id == m.id
  {
  }

  /** The sweep keeps every room's invariant. */
  lemma DisconnectPreservesInv(reg: Registry, socket: string)
    requires Inv(reg)
    ensures Inv(Disconnect(reg, socket).reg)
  {
    var r := Disconnect(reg, socket).reg;
    forall c | c in r.rooms
      ensures RoomInv(r.rooms[c]) && r.rooms[c].id == c
    {
      DisconnectFromKeepsRoomInv(reg.rooms[c], socket);
    }
  }

  lemma GenerateMcqKeepsRoomInv(m: Meeting, socket: string, env: Env, prompt: Option<string>, topic: Option<string>, difficulty: Option<string>)
    requires RoomInv(m)
    ensures RoomInv(Quiz.GenerateMcq(m, socket, env.uuid, prompt, topic, difficulty, env.mcqReply).room)
  {
    var r := Quiz.GenerateMcq(m, socket, env.uuid, prompt, topic, difficulty, env.mcqReply).room;
    if r != m {
      assert forall k :: 0 <= k < |m.mcqs| ==> r.mcqs[k] == m.mcqs[k];
    }
  }

  lemma SubmitResponseKeepsRoomInv(m: Meeting, socket: string, sessionId: string, idx: int, answer: string)
    requires RoomInv(m)
    ensures RoomInv(Quiz.SubmitResponse(m, socket, sessionId, idx, answer).room)
  {
    match Quiz.SessionIndex(m.mcqs, sessionId)
    case None =>
    case Some(k) => Quiz.RecordSockets(m.mcqs[k].responses, socket, idx, answer);
  }

  lemma GenerateFromSummaryKeepsRoomInv(m: Meeting, socket: string, env: Env)
    requires RoomInv(m)
    ensures RoomInv(Quiz.GenerateFromSummary(m, socket, env.uuid, env.mcqReply).room)
  {
    var r := Quiz.GenerateFromSummary(m, socket, env.uuid, env.mcqReply).room;
    if RequesterIsAdmin(m.participants, socket) && Quiz.SummaryPrompt(m).Some? {
      AddSessionKeepsRoomInv(m, r);
    }
  }

  /** A room that gains one session with no responses keeps the invariant. */
  lemma AddSessionKeepsRoomInv(m: Meeting, r: Meeting)
    requires RoomInv(m)
    requires r == m.(mcqs := r.mcqs) && |r.mcqs| == |m.mcqs| + 1 && r.mcqs[..|m.mcqs|] == m.mcqs
    requires r.mcqs[|m.mcqs|].responses == []
    ensures RoomInv(r)
  {
    assert forall k :: 0 <= k < |m.mcqs| ==> r.mcqs[k] == m.mcqs[k];
  }

  lemma SendMessageKeepsRoomInv(m: Meeting, env: Env, userId: string, userName: string, userRole: string, text: string)
    requires RoomInv(m)
    ensures RoomInv(Chat.SendMessage(m, env.uuid, userId, userName, userRole, text).room)
  {
    var r := Chat.SendMessage(m, env.uuid, userId, userName, userRole, text).room;
    assert forall k :: 0 <= k < |m.messages| ==> r.messages[k] == m.messages[k];
  }

  lemma ReactKeepsRoomInv(m: Meeting, messageId: string, kind: string, name: string)
    requires RoomInv(m)
    ensures RoomInv(Chat.ReactToMessage(m, messageId, kind, name).room)
  {
  }

  lemma DispatchLifecycleKeepsRoomInv(m: Meeting, socket: string, ev: Inbound)
    requires LifecycleEvent(ev) && RoomInv(m)
    ensures RoomInv(DispatchLifecycle(m, socket, ev).room)
  {
    match ev
    case UpdateName(_, name) => UpdateNameKeepsRoomInv(m, socket, name);
    case SubmitSentiment(_, value) => SubmitSentimentKeepsRoomInv(m, socket, value);
    case RemoveUser(_, target) => RemoveUserKeepsRoomInv(m, socket, target);
    case MuteUser(_, _) =>
  }

  lemma DispatchQuizKeepsRoomInv(m: Meeting, socket: string, ev: Inbound, env: Env)
    requires QuizEvent(ev) && RoomInv(m)
    ensures RoomInv(DispatchQuiz(m, socket, ev, env).room)
  {
    match ev
    case GenerateMcq(_, prompt, topic, difficulty) => GenerateMcqKeepsRoomInv(m, socket, env, prompt, topic, difficulty);
    case SubmitMcqResponse(_, sessionId, idx, answer) => SubmitResponseKeepsRoomInv(m, socket, sessionId, idx, answer);
    case GetMcqAnalytics(_, _) =>
    case GenerateFromSummary(_) => GenerateFromSummaryKeepsRoomInv(m, socket, env);
  }

  lemma DispatchContentKeepsRoomInv(m: Meeting, ev: Inbound, env: Env)
    requires ContentEvent(ev) && RoomInv(m)
    ensures RoomInv(DispatchContent(m, ev, env).room)
  {
    match ev
    case SendTranscriptChunk(_, _, _) =>
    case AudioChunkRecorded(_) =>
    case EndMeeting(_) =>
    case SendMessage(_, userId, userName, userRole, text) => SendMessageKeepsRoomInv(m, env, userId, userName, userRole, text);
    case ReactToMessage(_, messageId, kind, name) => ReactKeepsRoomInv(m, messageId, kind, name);
  }

  /** Every per-room handler keeps the room invariant. */
  lemma DispatchKeepsRoomInv(m: Meeting, socket: string, ev: Inbound, env: Env)
    requires InRoom(ev) && RoomInv(m)
    ensures RoomInv(Dispatch(m, socket, ev, env).room)
  {
    if LifecycleEvent(ev) {
      DispatchLifecycleKeepsRoomInv(m, socket, ev);
    } else if QuizEvent(ev) {
      DispatchQuizKeepsRoomInv(m, socket, ev, env);
    } else {
      DispatchContentKeepsRoomInv(m, ev, env);
    }
  }

  /** Every handler keeps every room's invariant, so the invariant holds after any sequence
      of events starting from the empty registry. */
  lemma HandlePreservesInv(reg: Registry, socket: string, ev: Inbound, env: Env)
    requires Inv(reg)
    ensures Inv(Handle(reg, socket, ev, env).reg)
  {
    if InRoom(ev) {
      hide Dispatch;
      var code := Code(ev);
      if code in reg.rooms && !(ev.MuteUser? || ev.GetMcqAnalytics?) {
        DispatchKeepsRoomInv(reg.rooms[code], socket, ev, env);
        ApplyKeepsInv(reg, Dispatch(reg.rooms[code], socket, ev, env));
      }
    } else if ev.JoinRoom? {
      var code := ev.joinRoom;
      JoinKeepsRoomInv(Lookup(reg, code), code, socket, ev.joinName, ev.isAdmin);
      ApplyKeepsInv(reg, Lifecycle.JoinRoom(Lookup(reg, code), code, socket, ev.joinName, ev.isAdmin));
    } else if ev.Disconnect? {
      DisconnectPreservesInv(reg, socket);
    }
  }
}

=== FILE: text.dfy ===
/** String operations the server and the client perform on `string` values:
    substring search (`includes`, `split`), whitespace tests (`trim`), joining, and the
    case conversions the mock quiz generator applies. */
module Text {
  import opened Wrappers

  /** JavaScript truthiness of an optional string: present and not empty. */
  predicate Truthy(s: Option<string>) {
    s.Some? && s.value != ""
  }

  /** `sub` occurs in `s` starting at index `i`. */
  predicate OccursAt(s: string, sub: string, i: nat) {
    i + |sub| <= |s| && s[i..i + |sub|] == sub
  }

  /** Index of the first occurrence of `sub` in `s` at or after `from`. */
  function IndexOfFrom(s: string, sub: string, from: nat): (r: Option<nat>)
    ensures r.Some? ==> from <= r.value && OccursAt(s, sub, r.value)
    ensures r.Some? ==> forall j :: from <= j < r.value ==> !OccursAt(s, sub, j)
    ensures r.None? ==> forall j :: from <= j ==> !OccursAt(s, sub, j)
    decreases |s| - from
  {
    if from + |sub| > |s| then None
    else if s[from..from + |sub|] == sub then Some(from)
    else IndexOfFrom(s, sub, from + 1)
  }

  /** JavaScript `s.indexOf(sub)`, with `None` for -1. */
  function IndexOf(s: string, sub: string): (r: Option<nat>)
    ensures r.Some? ==> OccursAt(s, sub, r.value) && forall j :: 0 <= j < r.value ==> !OccursAt(s, sub, j)
    ensures r.None? ==> forall j: nat :: !OccursAt(s, sub, j)
  {
    IndexOfFrom(s, sub, 0)
  }

  /** JavaScript `s.includes(sub)`. */
  predicate Contains(s: string, sub: string) {
    IndexOf(s, sub).Some?
  }

  /** JavaScript `s.split(sep)[0]` for a non-empty separator: the text before the first `sep`. */
  function BeforeFirst(s: string, sep: string): (r: string)
    ensures !Contains(s, sep) ==> r == s
  {
    match IndexOf(s, sep)
    case Some(i) => s[..i]
    case None => s
  }

  /** The text after the first `sep`, or the empty string when there is none. */
  function AfterFirst(s: string, sep: string): (r: string)
  {
    match IndexOf(s, sep)
    case Some(i) => s[i + |sep|..]
    case None => ""
  }

  /** JavaScript `s.split(sep)[1]` when `s` contains `sep`: the text between the first
      occurrence and the next one (or the end). */
  function SecondPiece(s: string, sep: string): string {
    BeforeFirst(AfterFirst(s, sep), sep)
  }

  /** A string that contains `sep` is the text before its first occurrence, `sep`, and the rest;
      the part before holds no occurrence of `sep`. */
  lemma SplitAround(s: string, sep: string)
    requires |sep| > 0 && Contains(s, sep)
    ensures s == BeforeFirst(s, sep) + sep + AfterFirst(s, sep)
    ensures !Contains(BeforeFirst(s, sep), sep)
  {
    var i := IndexOf(s, sep).value;
    var b := BeforeFirst(s, sep);
    assert b == s[..i];
    if Contains(b, sep) {
      var j := IndexOf(b, sep).value;
      assert b[j..j + |sep|] == s[j..j + |sep|];
      assert OccursAt(s, sep, j);
      assert false;
    }
  }

  /** Characters that ECMAScript's `String.prototype.trim` strips: WhiteSpace and LineTerminator. */
  predicate IsJsSpace(c: char) {
    c in {'\t', '\n', '\U{000B}', '\U{000C}', '\r', ' ', '\U{00A0}', '\U{1680}',
          '\U{2000}', '\U{2001}', '\U{2002}', '\U{2003}', '\U{2004}', '\U{2005}',
          '\U{2006}', '\U{2007}', '\U{2008}', '\U{2009}', '\U{200A}',
          '\U{2028}', '\U{2029}', '\U{202F}', '\U{205F}', '\U{3000}', '\U{FEFF}'}
  }

  /** `s.trim()` is the empty string exactly when every character of `s` is stripped. */
  predicate IsBlank(s: string) {
    forall i :: 0 <= i < |s| ==> IsJsSpace(s[i])
  }

  /** ASCII lower-casing of one character. */
  function LowerChar(c: char): char {
    if 'A' <= c <= 'Z' then (c as int + 32) as char else c
  }

  /** ASCII upper-casing of one character. */
  function UpperChar(c: char): char {
    if 'a' <= c <= 'z' then (c as int - 32) as char else c
  }

  /** `s.toLowerCase()` restricted to ASCII letters. */
  function ToLower(s: string): (r: string)
    ensures |r| == |s|
    ensures forall i :: 0 <= i < |s| ==> r[i] == LowerChar(s[i])
  {
    if s == [] then [] else [LowerChar(s[0])] + ToLower(s[1..])
  }

  /** `s.charAt(0).toUpperCase() + s.slice(1)` restricted to ASCII letters. */
  function Capitalize(s: string): (r: string)
    ensures |r| == |s|
    ensures |s| > 0 ==> r[0] == UpperChar(s[0]) && r[1..] == s[1..]
  {
    if s == [] then "" else [UpperChar(s[0])] + s[1..]
  }

  /** `xs.join(sep)`. */
  function Join(xs: seq<string>, sep: string): (r: string)
    ensures xs == [] ==> r == ""
    ensures |xs| == 1 ==> r == xs[0]
  {
    if xs == [] then ""
    else if |xs| == 1 then xs[0]
    else xs[0] + sep + Join(xs[1..], sep)
  }

  /** Decimal digits of a natural number. */
  function NatToString(n: nat): (r: string)
    ensures |r| > 0
    ensures forall i :: 0 <= i < |r| ==> '0' <= r[i] <= '9'
    decreases n
  {
    var d := ['0' + (n % 10) as char];
    if n < 10 then d else NatToString(n / 10) + d
  }

  /** How a template literal prints an integer. */
  function IntToString(n: int): (r: string)
    ensures |r| > 0
    ensures n < 0 <==> r[0] == '-'
  {
    if n < 0 then "-" + NatToString(-n) else NatToString(n)
  }
}

=== FILE: transcripts.dfy ===
/** Transcript ingestion and the end-of-meeting summary of server/server.js:
    `send-transcript-chunk`, the first `audio-chunk-recorded` handler and `end-meeting`.
    The transcription and summarisation services are oracles whose answers are parameters. */
module Transcripts {
  import opened Wrappers
  import opened Text
  import opened Room

  /** The parsed object the summariser returns. Each field is `None` when the object lacks it;
      the object's spread over the stored summary replaces exactly the fields it has. */
  datatype SummaryReply = SummaryReply(
    totalTranscripts: Option<int>,
    keyTopics: Option<seq<string>>,
    averageSentiment: Option<string>,
    engagementScore: Option<int>,
    mainInsights: Option<seq<string>>)

  /** The entry appended to the transcript and the `transcript-created` broadcast announcing it
      with the new transcript count. */
  function Append(m: Meeting, entry: TranscriptEntry): (r: RoomStep)
    ensures |r.room.transcripts| == |m.transcripts| + 1
    ensures r.room.transcripts[..|m.transcripts|] == m.transcripts
    ensures r.room.transcripts[|m.transcripts|] == entry
    ensures r.room == m.(transcripts := r.room.transcripts)
    ensures r.out == [Emit(ToRoom(m.id), TranscriptCreated(entry, |r.room.transcripts|))]
  {
    var m' := m.(transcripts := m.transcripts + [entry]);
    assert m'.transcripts[..|m.transcripts|] == m.transcripts;
    RoomStep(m', [Emit(ToRoom(m.id), TranscriptCreated(entry, |m'.transcripts|))])
  }

  /** The speaker `send-transcript-chunk` records: `speaker || 'Instructor'`. */
  function SpeakerOr(speaker: Option<string>): string {
    if Truthy(speaker) then speaker.value else "Instructor"
  }

  /** `send-transcript-chunk`: the text is appended as given, attributed to the speaker or,
      when the speaker is missing or empty, to "Instructor". */
  function SendTranscriptChunk(m: Meeting, text: string, speaker: Option<string>): (r: RoomStep)
    ensures r.room.transcripts == m.transcripts + [TranscriptEntry(text, SpeakerOr(speaker))]
    ensures r.room == m.(transcripts := r.room.transcripts)
    ensures r.out == [Emit(ToRoom(m.id), TranscriptCreated(TranscriptEntry(text, SpeakerOr(speaker)), |m.transcripts| + 1))]
  {
    Append(m, TranscriptEntry(text, SpeakerOr(speaker)))
  }

  /** `audio-chunk-recorded`: `transcription` is what the transcriber returned (its own mock
      text when the service failed). A transcription that trims to nothing is dropped with no
      emission; any other is appended as the instructor's. */
  function AudioChunkRecorded(m: Meeting, transcription: string): (r: RoomStep)
    ensures IsBlank(transcription) ==> r == RoomStep(m, [])
    ensures !IsBlank(transcription) ==>
              && r.room.transcripts == m.transcripts + [TranscriptEntry(transcription, "Instructor")]
              && r.room == m.(transcripts := r.room.transcripts)
              && r.out == [Emit(ToRoom(m.id), TranscriptCreated(TranscriptEntry(transcription, "Instructor"), |r.room.transcripts|))]
  {
    if IsBlank(transcription) then RoomStep(m, [])
    else Append(m, TranscriptEntry(transcription, "Instructor"))
  }

  /** The payload of one `send-transcript-chunk` event. */
  datatype Chunk = Chunk(text: string, speaker: Option<string>)

  /** The entry `send-transcript-chunk` stores for a chunk. */
  function EntryOf(c: Chunk): TranscriptEntry {
    TranscriptEntry(c.text, SpeakerOr(c.speaker))
  }

  /** A run of `send-transcript-chunk` events on one room, emissions concatenated. */
  function ChunkRun(m: Meeting, cs: seq<Chunk>): RoomStep
    decreases |cs|
  {
    if cs == [] then RoomStep(m, [])
    else
      var prev := ChunkRun(m, cs[..|cs| - 1]);
      var last := SendTranscriptChunk(prev.room, cs[|cs| - 1].text, cs[|cs| - 1].speaker);
      RoomStep(last.room, prev.out + last.out)
  }

  /** The entries of a run of chunks, in order. */
  function Entries(cs: seq<Chunk>): (r: seq<TranscriptEntry>)
    ensures |r| == |cs|
    ensures forall k :: 0 <= k < |cs| ==> r[k] == EntryOf(cs[k])
    decreases |cs|
  {
    if cs == [] then [] else Entries(cs[..|cs| - 1]) + [EntryOf(cs[|cs| - 1])]
  }

  /** One step of a chunk run: the run over all but the last chunk, then that chunk. */
  lemma ChunkRunStep(m: Meeting, cs: seq<Chunk>)
    requires cs != []
    ensures var prev := ChunkRun(m, cs[..|cs| - 1]);
            var last := SendTranscriptChunk(prev.room, cs[|cs| - 1].text, cs[|cs| - 1].speaker);
            ChunkRun(m, cs) == RoomStep(last.room, prev.out + last.out)
  {
  }

  /** After a run of chunks the transcript is the old one followed by every chunk's entry in
      order, and nothing else in the room has changed. */
  lemma {:induction false} ChunkRunAppends(m: Meeting, cs: seq<Chunk>)
    ensures ChunkRun(m, cs).room == m.(transcripts := m.transcripts + Entries(cs))
    decreases |cs|
  {
    assert cs == [] ==> ChunkRun(m, cs).room == m && m.transcripts + Entries(cs) == m.transcripts;
    hide ChunkRun, Append, SendTranscriptChunk;
    if cs != [] {
      var n := |cs| - 1;
      ChunkRunStep(m, cs);
      ChunkRunAppends(m, cs[..n]);
      var prev := ChunkRun(m, cs[..n]);
      var last := SendTranscriptChunk(prev.room, cs[n].text, cs[n].speaker);
      assert Entries(cs) == Entries(cs[..n]) + [EntryOf(cs[n])];
      assert last.room.transcripts == prev.room.transcripts + [EntryOf(cs[n])];
    }
  }

  /** The last chunk of a run adds exactly one announcement: its entry with the new count. */
  lemma ChunkRunLastOut(m: Meeting, cs: seq<Chunk>)
    requires cs != []
    ensures ChunkRun(m, cs).out ==
              ChunkRun(m, cs[..|cs| - 1]).out + [Emit(ToRoom(m.id), TranscriptCreated(EntryOf(cs[|cs| - 1]), |m.transcripts| + |cs|))]
  {
    hide ChunkRun, Append, Entries;
    var n := |cs| - 1;
    var prev := ChunkRun(m, cs[..n]);
    var last := SendTranscriptChunk(prev.room, cs[n].text, cs[n].speaker);
    var e := Emit(ToRoom(m.id), TranscriptCreated(EntryOf(cs[n]), |m.transcripts| + |cs|));
    assert last.out == [e] by {
      assert prev.room.id == m.id && |prev.room.transcripts| == |m.transcripts| + n by {
        ChunkRunAppends(m, cs[..n]);
      }
    }
    assert ChunkRun(m, cs).out == prev.out + [e] by {
      ChunkRunStep(m, cs);
    }
  }

  /** A run of chunks announces one `transcript-created` per chunk, in order, the k-th carrying
      that chunk's entry and the count `|old| + k + 1`. */
  lemma {:induction false} ChunkRunAnnounces(m: Meeting, cs: seq<Chunk>)
    ensures |ChunkRun(m, cs).out| == |cs|
    ensures forall k :: 0 <= k < |cs| ==>
              ChunkRun(m, cs).out[k] == Emit(ToRoom(m.id), TranscriptCreated(EntryOf(cs[k]), |m.transcripts| + k + 1))
    decreases |cs|
  {
    assert cs == [] ==> ChunkRun(m, cs).out == [];
    hide *;
    if cs != [] {
      var n := |cs| - 1;
      ChunkRunLastOut(m, cs);
      ChunkRunAnnounces(m, cs[..n]);
      forall k | 0 <= k < n
        ensures ChunkRun(m, cs).out[k] == Emit(ToRoom(m.id), TranscriptCreated(EntryOf(cs[k]), |m.transcripts| + k + 1))
      {
        assert cs[..n][k] == cs[k];
      }
    }
  }

  /** The non-blank transcriptions of `ts`, in order, as the instructor's entries. */
  function Kept(ts: seq<string>): (r: seq<TranscriptEntry>)
    ensures |r| <= |ts|
    ensures forall k :: 0 <= k < |r| ==> r[k].speaker == "Instructor" && !IsBlank(r[k].text)
    decreases |ts|
  {
    if ts == [] then []
    else
      var t := ts[|ts| - 1];
      Kept(ts[..|ts| - 1]) + (if IsBlank(t) then [] else [TranscriptEntry(t, "Instructor")])
  }

  /** Every kept entry is a non-blank transcription, and every non-blank transcription is kept. */
  lemma {:induction false} KeptMembers(ts: seq<string>)
    ensures forall k :: 0 <= k < |Kept(ts)| ==>
              exists j :: 0 <= j < |ts| && !IsBlank(ts[j]) && Kept(ts)[k] == TranscriptEntry(ts[j], "Instructor")
    ensures forall j :: 0 <= j < |ts| && !IsBlank(ts[j]) ==> TranscriptEntry(ts[j], "Instructor") in Kept(ts)
    decreases |ts|
  {
    if ts == [] {
      assert Kept(ts) == [];
    } else {
      var n := |ts| - 1;
      KeptMembers(ts[..n]);
      assert ts == ts[..n] + [ts[n]];
      var prev := Kept(ts[..n]);
      var r := Kept(ts);
      assert r == prev + (if IsBlank(ts[n]) then [] else [TranscriptEntry(ts[n], "Instructor")]);
      forall k | 0 <= k < |r|
        ensures exists j :: 0 <= j < |ts| && !IsBlank(ts[j]) && r[k] == TranscriptEntry(ts[j], "Instructor")
      {
        if k < |prev| {
          assert r[k] == prev[k];
          var j :| 0 <= j < |ts[..n]| && !IsBlank(ts[..n][j]) && prev[k] == TranscriptEntry(ts[..n][j], "Instructor");
          assert ts[..n][j] == ts[j];
        } else {
          assert r[k] == TranscriptEntry(ts[n], "Instructor") && !IsBlank(ts[n]);
        }
      }
      forall j | 0 <= j < |ts| && !IsBlank(ts[j])
        ensures TranscriptEntry(ts[j], "Instructor") in r
      {
        if j < n {
          assert ts[..n][j] == ts[j];
          assert TranscriptEntry(ts[j], "Instructor") in prev;
        } else {
          assert r[|r| - 1] == TranscriptEntry(ts[j], "Instructor");
        }
      }
    }
  }

  /** Keeping distributes over concatenation: the kept entries stay in arrival order. */
  lemma {:induction false} KeptAppend(a: seq<string>, b: seq<string>)
    ensures Kept(a + b) == Kept(a) + Kept(b)
    decreases |b|
  {
    if b == [] {
      assert a + b == a;
    } else {
      var n := |b| - 1;
      assert (a + b)[..|a + b| - 1] == a + b[..n];
      assert (a + b)[|a + b| - 1] == b[n];
      KeptAppend(a, b[..n]);
    }
  }

  /** A run of `audio-chunk-recorded` events on one room, fed the transcriptions `ts`. */
  function AudioRun(m: Meeting, ts: seq<string>): RoomStep
    decreases |ts|
  {
    if ts == [] then RoomStep(m, [])
    else
      var prev := AudioRun(m, ts[..|ts| - 1]);
      var last := AudioChunkRecorded(prev.room, ts[|ts| - 1]);
      RoomStep(last.room, prev.out + last.out)
  }

  /** One step of an audio run: the run over all but the last transcription, then that one. */
  lemma AudioRunStep(m: Meeting, ts: seq<string>)
    requires ts != []
    ensures var prev := AudioRun(m, ts[..|ts| - 1]);
            var last := AudioChunkRecorded(prev.room, ts[|ts| - 1]);
            AudioRun(m, ts) == RoomStep(last.room, prev.out + last.out)
  {
  }

  /** After a run of audio chunks the transcript is the old one followed by the non-blank
      transcriptions in order, and nothing else in the room has changed. */
  lemma {:induction false} AudioRunAppends(m: Meeting, ts: seq<string>)
    ensures AudioRun(m, ts).room == m.(transcripts := m.transcripts + Kept(ts))
    decreases |ts|
  {
    assert ts == [] ==> AudioRun(m, ts).room == m && m.transcripts + Kept(ts) == m.transcripts;
    hide AudioRun, Append, AudioChunkRecorded;
    if ts != [] {
      var n := |ts| - 1;
      AudioRunStep(m, ts);
      AudioRunAppends(m, ts[..n]);
      assert (m.transcripts + Kept(ts[..n])) + (if IsBlank(ts[n]) then [] else [TranscriptEntry(ts[n], "Instructor")])
          == m.transcripts + Kept(ts);
    }
  }

  /** The last transcription of a run adds one announcement when it is not blank: the
      instructor's entry with the new count. */
  lemma AudioRunLastOut(m: Meeting, ts: seq<string>)
    requires ts != []
    ensures var n := |ts| - 1;
            AudioRun(m, ts).out == AudioRun(m, ts[..n]).out +
              (if IsBlank(ts[n]) then []
               else [Emit(ToRoom(m.id), TranscriptCreated(TranscriptEntry(ts[n], "Instructor"), |m.transcripts| + |Kept(ts[..n])| + 1))])
  {
    hide AudioRun, Append, Kept, AudioChunkRecorded;
    var n := |ts| - 1;
    var prev := AudioRun(m, ts[..n]);
    AudioRunStep(m, ts);
    assert prev.room.id == m.id && |prev.room.transcripts| == |m.transcripts| + |Kept(ts[..n])| by {
      AudioRunAppends(m, ts[..n]);
    }
  }

  /** A run of audio chunks announces one `transcript-created` per kept transcription, in
      order, the k-th carrying the k-th kept entry and the count `|old| + k + 1`: blank
      transcriptions leave no trace. */
  lemma {:induction false} AudioRunAnnounces(m: Meeting, ts: seq<string>)
    ensures |AudioRun(m, ts).out| == |Kept(ts)|
    ensures forall k :: 0 <= k < |Kept(ts)| ==>
              AudioRun(m, ts).out[k] == Emit(ToRoom(m.id), TranscriptCreated(Kept(ts)[k], |m.transcripts| + k + 1))
    decreases |ts|
  {
    assert ts == [] ==> AudioRun(m, ts).out == [] && Kept(ts) == [];
    hide AudioRun, Append, AudioChunkRecorded;
    if ts != [] {
      var n := |ts| - 1;
      AudioRunLastOut(m, ts);
      AudioRunAnnounces(m, ts[..n]);
      var kept := Kept(ts[..n]);
      assert Kept(ts) == kept + (if IsBlank(ts[n]) then [] else [TranscriptEntry(ts[n], "Instructor")]);
      forall k | 0 <= k < |kept|
        ensures AudioRun(m, ts).out[k] == Emit(ToRoom(m.id), TranscriptCreated(Kept(ts)[k], |m.transcripts| + k + 1))
      {
        assert Kept(ts)[k] == kept[k];
      }
    }
  }

  /** `{ ...summary, ...reply }`: the reply's fields win, the others are kept. */
  function Merge(s: ClassSummary, d: SummaryReply): (r: ClassSummary)
    ensures d.totalTranscripts.Some? ==> r.totalTranscripts == d.totalTranscripts.value
    ensures d.totalTranscripts.None? ==> r.totalTranscripts == s.totalTranscripts
    ensures d.keyTopics.Some? ==> r.keyTopics == d.keyTopics.value
    ensures d.keyTopics.None? ==> r.keyTopics == s.keyTopics
    ensures d.averageSentiment.Some? ==> r.averageSentiment == d.averageSentiment.value
    ensures d.averageSentiment.None? ==> r.averageSentiment == s.averageSentiment
    ensures d.engagementScore.Some? ==> r.engagementScore == d.engagementScore.value
    ensures d.engagementScore.None? ==> r.engagementScore == s.engagementScore
    ensures d.mainInsights.Some? ==> r.mainInsights == d.mainInsights.value
    ensures d.mainInsights.None? ==> r.mainInsights == s.mainInsights
  {
    ClassSummary(
      d.totalTranscripts.GetOr(s.totalTranscripts),
      d.keyTopics.GetOr(s.keyTopics),
      d.averageSentiment.GetOr(s.averageSentiment),
      d.engagementScore.GetOr(s.engagementScore),
      d.mainInsights.GetOr(s.mainInsights))
  }

  /** The later of two optional fields: the second when present. */
  function Later<T>(a: Option<T>, b: Option<T>): Option<T> {
    if b.Some? then b else a
  }

  /** `{ ...d1, ...d2 }`: the fields of both replies, `d2`'s winning where both have one. */
  function Overlay(d1: SummaryReply, d2: SummaryReply): (d: SummaryReply)
    ensures d.totalTranscripts.None? <==> d1.totalTranscripts.None? && d2.totalTranscripts.None?
    ensures d.keyTopics.None? <==> d1.keyTopics.None? && d2.keyTopics.None?
    ensures d.averageSentiment.None? <==> d1.averageSentiment.None? && d2.averageSentiment.None?
    ensures d.engagementScore.None? <==> d1.engagementScore.None? && d2.engagementScore.None?
    ensures d.mainInsights.None? <==> d1.mainInsights.None? && d2.mainInsights.None?
  {
    SummaryReply(
      Later(d1.totalTranscripts, d2.totalTranscripts),
      Later(d1.keyTopics, d2.keyTopics),
      Later(d1.averageSentiment, d2.averageSentiment),
      Later(d1.engagementScore, d2.engagementScore),
      Later(d1.mainInsights, d2.mainInsights))
  }

  /** Two successive spreads are one spread of the overlaid replies, as when `end-meeting`
      runs twice. */
  lemma MergeTwice(s: ClassSummary, d1: SummaryReply, d2: SummaryReply)
    ensures Merge(Merge(s, d1), d2) == Merge(s, Overlay(d1, d2))
  {
  }

  /** Merging the same reply twice is merging it once. */
  lemma MergeIdempotent(s: ClassSummary, d: SummaryReply)
    ensures Merge(Merge(s, d), d) == Merge(s, d)
  {
  }

  /** An empty reply object leaves the summary as it was. */
  lemma MergeEmpty(s: ClassSummary)
    ensures Merge(s, SummaryReply(None, None, None, None, None)) == s
  {
  }

  /** `end-meeting`: with transcripts, the summariser's reply (`None` for its `null`) is
      merged over the stored summary; without transcripts the summariser is not consulted.
      Either way the room is told the meeting ended, with the resulting summary. */
  function EndMeeting(m: Meeting, reply: Option<SummaryReply>): (r: RoomStep)
    ensures r.room == m.(classSummary := r.room.classSummary)
    ensures m.transcripts == [] || reply.None? ==> r.room == m
    ensures m.transcripts != [] && reply.Some? ==> r.room.classSummary == Merge(m.classSummary, reply.value)
    ensures r.out == [Emit(ToRoom(m.id), MeetingEnded(r.room.classSummary))]
  {
    var m' := if |m.transcripts| > 0 && reply.Some? then m.(classSummary := Merge(m.classSummary, reply.value)) else m;
    RoomStep(m', [Emit(ToRoom(m.id), MeetingEnded(m'.classSummary))])
  }

  /** Ending a meeting that has no transcripts broadcasts the stored summary whatever the
      summariser would have said. */
  lemma EndWithoutTranscripts(m: Meeting, a: Option<SummaryReply>, b: Option<SummaryReply>)
    requires m.transcripts == []
    ensures EndMeeting(m, a) == EndMeeting(m, b)
    ensures EndMeeting(m, a).out == [Emit(ToRoom(m.id), MeetingEnded(m.classSummary))]
  {
  }
}

=== FILE: wrappers.dfy ===
/** Failure-compatible wrappers shared by every module of the meeting-room model. */
module Wrappers {

  /** A value that may be absent: JavaScript's `undefined`/`null` versus a present value. */
  datatype Option<+T> = None | Some(value: T) {
    function GetOr(default: T): T {
      match this
      case Some(v) => v
      case None => default
    }
  }

  /** The outcome of a computation that may throw: `Failure` carries the exception message. */
  datatype Result<+R> = Success(value: R) | Failure(error: string)
}
